=== FILE: README.md ===
# docster services in Dafny

docster documents a GitHub repository with a generative model. It does four things:

- It walks the repository listing and picks the "important" files.
- It asks the model to document each one, plus a repository summary and a Mermaid flow diagram.
- It stores the result as JSON and as Markdown, under a directory named after the repository.
- It answers chat questions from that stored documentation, and exports Markdown to Word or PDF.

This project models the four service classes that do this work. Each is modelled with its collaborators replaced by inputs:

- **DocumentationService**: `documentation_service.dfy`, with the listing walk in `repository_tree.dfy`.
- **AIService**: `ai_service.dfy`.
- **ChatService**: `chat_service.dfy`.
- **ExportService**: `export_service.dfy`.

The services rely on Python's string semantics: `split`, `split()`, `splitlines`, `strip`, `join`, `lower`, `replace` and `in`. These are defined once, in `text.dfy`. Generic facts about subsequences and distinct elements, used to state that filters keep their input order, are in `sequences.dfy`.

The external collaborators become inputs as follows:

- **GitHub.** The repository listing is a `Content` tree, with name, path, kind, size and children. `get_repository` failing is `repo == None`. Fetching one file is a `FileFetch`: a directory listing, the decoded text, or a failure.
- **The generative model.** Each guarded call is an oracle `call: nat -> Attempt<string>`. `call(i)` is what the i-th invocation returned or raised. Whether `self.model` is set is the flag `modelAvailable`.
- **Sleeps.** They are recorded as the list of delays the retry loop would sleep.
- **The clock.** Timestamps are string parameters.
- **The documentation store.** It is the map fields `store` (documentation.json) and `markdown` (documentation.md). Both are keyed by the repository name with `/` replaced by `_`.
- **The conversation directory.** It is the append-only sequence `conversations`.
- **Exports.** Word and PDF output is the list of elements or text cells that would be written. The Markdown-to-HTML rendering that feeds the PDF path is an input.

Code that updates state or loops becomes methods with loop invariants, proved against specification functions. Each specification function's properties are proved as lemmas. This covers the retry loop, the Mermaid formatter, the listing walk, the `file_docs` loop, the Markdown writer, the store, context retrieval, the update lookup, the conversation log, and the Word and PDF loops.

One behaviour of the Mermaid clean-up is worth knowing, and it is stated as a lemma rather than changed. When the model's reply is fenced, `''.join` glues the remaining lines together, so the diagram collapses to at most two lines (AIService.FencedResponseCollapses). The authors may have meant this, since the result still passes the `-->` check.

## Model

| member | source | states |
|---|---|---|
| AIService.MaskKey | server/services/ai_service.py:18-20 | a key longer than 4 characters masks to the same length, ending with its last 4 characters and `*` everywhere else; any shorter key masks to `****` |
| AIService.MaskRevealsOnlyLengthAndTail | server/services/ai_service.py:19-20 | two keys of equal length (over 4) that share their last 4 characters have the same mask |
| AIService.Retry | server/services/ai_service.py:100-116 | for a non-negative `initial_delay`: a negative `max_retries` never calls and falls through; otherwise there are 1 to `max_retries + 1` calls, every call before the last raised, and the run returns the first success or re-raises the last error exactly when all `max_retries + 1` calls raised; the delays are `initial_delay * 2^k` for each retry, with no sleep after the final failure |
| AIService.RetryApiCall | server/services/ai_service.py:100-116 | the while loop's outcome, number of calls and recorded sleeps are exactly those of `Retry` |
| AIService.Backoff | server/services/ai_service.py:113 | the k-th delay is `initial_delay * 2^k` |
| AIService.BackoffTotal | server/services/ai_service.py:113-116 | the total sleep before the n-th retry is `initial_delay * (2^n - 1)` |
| AIService.DefaultScheduleWhenAllFail | server/services/ai_service.py:100-116 | with the defaults and every call raising: 4 calls, sleeps 1, 2, 4, and the 4th call's error re-raised |
| AIService.AnalyzeCode | server/services/ai_service.py:118-155 | the not-available message without a model; otherwise the first successful response, or `Error analyzing code: ` plus the re-raised error; never an exception; at most 3 sleeps |
| AIService.AnalyzeCommit | server/services/ai_service.py:157-184 | as AnalyzeCode, with the `Error analyzing commit: ` prefix |
| AIService.GenerateRepositorySummary | server/services/ai_service.py:186-223 | as AnalyzeCode, with the `Error generating repository summary: ` prefix |
| AIService.AnswerQuestion | server/services/ai_service.py:225-252 | as AnalyzeCode, with the `Error answering question: ` prefix |
| AIService.GuardedModelCall | server/services/ai_service.py:120-155 | the shared shape of the four guarded calls: the text and the recorded sleeps |
| AIService.DropFenceLines | server/services/ai_service.py:302-305 | keeps exactly the lines that neither start nor end with three backticks |
| AIService.DropFenceLinesAppend | server/services/ai_service.py:302-305 | filtering two runs of lines one after the other is filtering each, so the kept lines keep their order and multiplicity |
| AIService.DropFenceLinesOne | server/services/ai_service.py:304 | a single line is dropped exactly when it starts or ends with three backticks |
| AIService.Unfenced | server/services/ai_service.py:298-305 | the text is stripped at both ends, and is the stripped response itself when that holds no fence |
| AIService.CleanFencedResponse | server/services/ai_service.py:301-305 | for a fenced response, the cleaned text is the stripped concatenation of the kept lines of each part of the line list, in order |
| AIService.CleanDiagram | server/services/ai_service.py:298-309 | the cleaned diagram starts with `flowchart`; it is the unfenced text itself when that starts with `flowchart`, and `flowchart LR\n` followed by the unfenced text otherwise |
| AIService.CleanKeepsFlowchart | server/services/ai_service.py:298-309 | a fence-free response whose stripped text starts with `flowchart` comes back stripped and otherwise unchanged |
| AIService.CleanAddsHeader | server/services/ai_service.py:298-309 | any other fence-free response becomes `flowchart LR\n` followed by its stripped text |
| AIService.FencedResponseCollapses | server/services/ai_service.py:301-305 | when the stripped response holds a fence, the kept lines are glued with no separator, so the cleaned diagram has at most two lines |
| AIService.FormatAll | server/services/ai_service.py:316-323 | one formatted line per source line |
| AIService.FormatAllAt | server/services/ai_service.py:316-323 | the i-th formatted line is the i-th source line, stripped and re-indented |
| AIService.FormatLineOnlyIndents | server/services/ai_service.py:317-323 | formatting changes only the whitespace at the two ends of a line (trailing whitespace is removed, leading whitespace becomes the indent): stripping a formatted line gives the stripped source line |
| AIService.FormatDiagramLines | server/services/ai_service.py:312-325 | the loop's `formatted_lines` are `FormatAll` of the lines |
| AIService.GenerateMermaidDiagram | server/services/ai_service.py:254-341 | always a block opening with the mermaid fence and closing with a fence; the not-available diagram without a model, the failure diagram when the call fails, else the post-processed response; the recorded sleeps are those of the retry run, and none without a model |
| AIService.MermaidFromResponseFenced | server/services/ai_service.py:325-341 | a processed response is fenced whether or not it holds `-->` |
| AIService.FallbacksAreFenced | server/services/ai_service.py:256-341 | both fixed fallback diagrams are fenced blocks: the not-available diagram (lines 256-260) and the failure diagram (lines 338-341) |
| AIService.MermaidResultShape | server/services/ai_service.py:327-334 | a result other than the failure diagram wraps a body that holds `-->` |
| RepositoryTree.Extension | server/services/documentation_service.py:242 | `os.path.splitext` extension: empty or a dot-led suffix of the name with no further dot |
| RepositoryTree.ExtensionNonEmptyIff | server/services/documentation_service.py:242 | the extension is non-empty exactly when the final path component has a dot after some character other than a dot |
| RepositoryTree.ExtensionExamples | server/services/documentation_service.py:242 | `main.py` gives `.py`, `archive.tar.gz` gives `.gz`, `.py` and `makefile` give nothing |
| RepositoryTree.ProcessContents | server/services/documentation_service.py:228-250 | the recursive walk returns exactly the selected paths |
| RepositoryTree.GetImportantFiles | server/services/documentation_service.py:223-253 | returns exactly the selected paths |
| RepositoryTree.SelectedIff | server/services/documentation_service.py:228-250 | a path is selected iff it belongs to a non-directory entry, reachable without entering a skipped directory, whose lowercased name is special or has a code extension |
| RepositoryTree.SelectedFromIff | server/services/documentation_service.py:230-249 | the same characterisation for one entry and what lies below it |
| RepositoryTree.SelectedConcat | server/services/documentation_service.py:230 | the selection of a listing is the selections of its parts, in order |
| RepositoryTree.SkippedDirContentsIrrelevant | server/services/documentation_service.py:231-234 | nothing under a skipped directory is selected, whatever it contains |
| RepositoryTree.SelectedInListingOrder | server/services/documentation_service.py:228-252 | the selected paths are a subsequence of all paths in depth-first pre-order |
| RepositoryTree.SelectedFromInListingOrder | server/services/documentation_service.py:236-249 | the same for one entry |
| RepositoryTree.SelectedHasNoDuplicates | server/services/documentation_service.py:228-252 | when listed paths are distinct, each selected path appears once |
| RepositoryTree.BuildRepoStructure | server/services/documentation_service.py:197-221 | the loop builds exactly `Structure` of the listing |
| RepositoryTree.StructureMirrorsListing | server/services/documentation_service.py:201-219 | one entry per item in order, with the same name and path; a directory entry exactly for a directory, whose contents are its children's structure (skipped names included) |
| RepositoryTree.StructureLength | server/services/documentation_service.py:199-221 | the structure has as many entries as the listing |
| RepositoryTree.StructureRoundTrip | server/services/documentation_service.py:201-219 | reading the structure back gives the listing (for well-formed listings) |
| DocumentationService.GenerateFileDocumentation | server/services/documentation_service.py:17-49 | `None` exactly for a directory listing or a failed fetch or decode; otherwise a record with the input path, the model's documentation and the timestamp |
| DocumentationService.CollectFileDocs | server/services/documentation_service.py:91-101 | the loop's `file_docs` are `CollectedDocs` of the important files |
| DocumentationService.CollectedDocsAreTheSuccesses | server/services/documentation_service.py:91-101 | `file_docs` is the subsequence of important paths whose file could be read, each with the model's documentation for it; failures are dropped |
| DocumentationService.GenerateMarkdown | server/services/documentation_service.py:274-321 | the appended lines are the header, 4 lines per file record, the diagram section when present and the footer, joined by newlines |
| DocumentationService.MarkdownLayout | server/services/documentation_service.py:279-319 | the title comes first; `### path` and the documentation for each record, in list order; `## Diagrams` iff diagrams are present; `---` and `Generated at:` last |
| DocumentationService.MarkdownText | server/services/documentation_service.py:279-321 | the text starts with `# name Documentation` and ends with `\n---\nGenerated at: …` |
| DocumentationService.StorageKey | server/services/documentation_service.py:258 | same length as the name; each `/` becomes `_` and every other character is kept, so no `/` is left |
| DocumentationService.StorageKeyCollision | server/services/documentation_service.py:258 | `a/b` and `a_b` share a storage directory |
| DocumentationService.SaveThenGet | server/services/documentation_service.py:255-332 | after a save, a read of a name with the same key returns the saved document; other keys keep what they had |
| DocumentationService.DocumentationService.SaveDocumentation | server/services/documentation_service.py:255-272 | writes the document and its Markdown under the key; nothing else changes |
| DocumentationService.DocumentationService.GetDocumentation | server/services/documentation_service.py:323-332 | what the store holds under the key, or `None` |
| DocumentationService.DocumentationService.GenerateRepositoryDocumentation | server/services/documentation_service.py:51-127 | `None` with the store untouched when the repository cannot be fetched; otherwise the repository fields, the model summary, `CollectedDocs` of the selected files and the timestamp, saved with its Markdown under the key, with no diagrams; no other key changes |
| DocumentationService.DocumentationService.GenerateDocumentation | server/services/documentation_service.py:129-154 | `None` iff the repository cannot be fetched, with the store untouched; otherwise the repository fields, summary, file records and timestamp of `generate_repository_documentation`, plus the flow diagram, which is fenced at both ends and is the not-available diagram without a model, the failure diagram when the retry re-raises, else the processed response; only the repository's key changes in the store, and it holds the document without diagrams, with its Markdown |
| ChatService.Keywords | server/services/chat_service.py:32 | a word is a keyword exactly when it is a maximal run of non-whitespace characters in the lowercased query |
| ChatService.RelevantFilesIff | server/services/chat_service.py:31-37 | a record is included iff a keyword occurs in its lowercased path or documentation, in stored order |
| ChatService.RelevantFilesAppend | server/services/chat_service.py:31-37 | filtering two runs of records one after the other is filtering each, so order and multiplicity are kept |
| ChatService.RelevantFilesOne | server/services/chat_service.py:34-37 | a single record is kept exactly when some keyword occurs in its lowercased path or documentation |
| ChatService.ContextLayout | server/services/chat_service.py:23-37 | the blocks are `Repository:`, `Description:` and `Summary:`, then `File: path` and the documentation of each relevant record |
| ChatService.BlankQueryGivesHeaders | server/services/chat_service.py:32-35 | a whitespace-only query yields just the three header blocks |
| ChatService.ChatService.GetContextForQuery | server/services/chat_service.py:15-39 | the no-documentation message when nothing is stored; otherwise the context blocks joined by blank lines |
| ChatService.ChatService.AppendRelevantFiles | server/services/chat_service.py:31-37 | the loop appends exactly the blocks of the relevant records |
| ChatService.ChatService.RequestDocumentationUpdate | server/services/chat_service.py:56-81 | the no-documentation error; the no-record error when no record has exactly that path; else success echoing the suggestion; the store is only read |
| ChatService.ChatService.AnswerQuestion | server/services/chat_service.py:41-54 | appends exactly one conversation even when the answer is an error string; returns the question and repository name unchanged |
| ChatService.ChatService.SaveConversation | server/services/chat_service.py:83-102 | appends one record with the storage directory and the `:`-free timestamp |
| ChatService.SavedTimestampHasNoColon | server/services/chat_service.py:88 | the saved timestamp contains no `:` |
| ExportService.RenderClassify | server/services/export_service.py:36-47 | rendering a classified paragraph gives it back, except a fence shorter than six characters |
| ExportService.ShortFenceIsEmptyCode | server/services/export_service.py:43-44 | a fenced paragraph under six characters becomes an empty code paragraph |
| ExportService.ClassifyRender | server/services/export_service.py:37-47 | headings of levels 1 to 3, code paragraphs and plain text that opens no rule are classified back to themselves |
| ExportService.MarkdownToDocx | server/services/export_service.py:28-50 | the loop emits the title heading, then `Classify` of each paragraph |
| ExportService.DocxLayout | server/services/export_service.py:32-47 | the level-0 `Documentation` heading, then exactly one element per `\n\n`-separated paragraph, in order |
| ExportService.DocxRoundTrip | server/services/export_service.py:34-47 | joining the rendered body elements with blank lines restores the Markdown, unless a paragraph is a short fence |
| ExportService.MarkdownToPdf | server/services/export_service.py:20-23 | the loop's cells are `PdfCells` of the `<p>`-split segments |
| ExportService.CellTextShape | server/services/export_service.py:21-22 | a segment with `</p>` is its cell text followed by `</p>`, and the text has no `</p>` |
| ExportService.PdfTextHasNoTags | server/services/export_service.py:20-23 | no cell contains `<p>` or `</p>` |
| ExportService.ExportDocumentation | server/services/export_service.py:52-62 | lowercased `pdf` gives the PDF cells and `docx` the Word elements; any other name gives the unsupported-format error with its message |
| ExportService.FormatNameCaseInsensitive | server/services/export_service.py:56-58 | `PDF`, `Pdf`, `DOCX` and `DocX` are accepted and `txt` is not |
| Text.JoinSplit | server/services/export_service.py:34 | joining what `split` cut gives back the text |
| Text.WordsEmptyIffBlank | server/services/chat_service.py:32 | `split()` is empty iff the text is all whitespace |
| Text.WordsIff | server/services/chat_service.py:32 | a string is among `s.split()` exactly when it is non-empty, has no whitespace, and occurs in `s` with whitespace or an end of `s` on both sides |
| Text.ReplaceCharRemoves | server/services/documentation_service.py:258 | after `replace` of one character by another, none of the first is left |

## Left out

- AIService.Retry: the model requires a non-negative `initial_delay`. With a negative one, `time.sleep` raises `ValueError` at the first retry, and that path is not modelled. Every caller passes 1.
- Flask routes, `app.py` and the GitHub wrapper (`github_service.py`) are plumbing around the services, so they are not modelled. The repository listing is an input tree, and authentication is not modelled.
- Prompts, `generate_content`, and the model probing in the `AIService` constructor are foreign calls. The model is the `call` oracle, which also stands for the prompt, so no constructed prompt is modelled.
- `analyze_repository` is not modelled separately. Its result only feeds the diagram prompt, so only its failure matters. It re-raises when the repository cannot be fetched, which is modelled as `repo == None` making `GenerateDocumentation` return `None`.
- DocumentationService.DocumentationService.GenerateRepositoryDocumentation: a failure of a listing fetch (top level or a sub-directory) also makes the source return `None`. The model only covers `get_repository` failing. Listings are a given tree.
- DocumentationService.DocumentationService.GenerateDocumentation: the same listing-fetch failure also makes it return `None` in the source, because `analyze_repository` re-raises on it. The model does not cover this either.
- AIService.AnalyzeCode, AIService.AnalyzeCommit, AIService.GenerateRepositorySummary and AIService.AnswerQuestion: a reply whose `.text` raises when read is not represented, because a successful call is modelled by its text alone. In the source, that call ends the run, after any earlier failures and their sleeps, with the prefixed error string.
- AIService.GenerateMermaidDiagram: the same holds for `response.text.strip()`. In the source, that call ends the run, after any earlier failures and their sleeps, with the failure diagram.
- `analyze_commit` has no caller in the services. It is modelled for completeness only.
- Logging, `os.makedirs`, file writes and reads, and the `json` round trip are left out. The store holds the document value itself.
- The real clock and `time.sleep` are left out. Timestamps are parameters and sleeps are a recorded list.
- The `markdown`, `fpdf` and `python-docx` libraries are left out. The PDF path takes the HTML as an input, and both paths return the elements that would be written, not a file path.
- Text.Lower folds ASCII letters only. Python's `lower()` is Unicode-aware, so keyword matching on non-ASCII text is not modelled exactly. For the format names `pdf` and `docx` the two agree.

=== FILE: ai_service.dfy ===
/**
 * The generative-model service: masking of the API key for the log, the
 * bounded retry with exponential backoff around every model call, the
 * fixed error strings that stand in for a failed or unavailable model, and
 * the clean-up that turns a model response into a fenced Mermaid flowchart.
 *
 * The model itself is an oracle: `call(i)` is what the i-th invocation of
 * the wrapped API call produced.  Whether `self.model` is set is the flag
 * `modelAvailable`.  Sleeps are recorded as a list of delays in seconds.
 */
module AIService {
  import opened Text

  // ---------------------------------------------------------------------
  // API key masking (constructor)
  // ---------------------------------------------------------------------

  /** The form in which a non-empty API key is written to the log. */
  function MaskKey(key: string): (masked: string)
    ensures |key| > 4 ==> |masked| == |key|
    ensures |key| > 4 ==> masked[|key| - 4..] == key[|key| - 4..]
    ensures |key| > 4 ==> forall i :: 0 <= i < |key| - 4 ==> masked[i] == '*'
    ensures |key| <= 4 ==> masked == "****"
  {
    if |key| > 4 then Repeat('*', |key| - 4) + key[|key| - 4..] else "****"
  }

  /** The mask reveals the length and the last four characters of a key, and nothing else. */
  lemma MaskRevealsOnlyLengthAndTail(k1: string, k2: string)
    requires |k1| == |k2| > 4
    requires k1[|k1| - 4..] == k2[|k2| - 4..]
    ensures MaskKey(k1) == MaskKey(k2)
  {
    var m1, m2 := MaskKey(k1), MaskKey(k2);
    forall i | 0 <= i < |m1| ensures m1[i] == m2[i] {
      if i >= |k1| - 4 {
        assert m1[i] == m1[|k1| - 4..][i - (|k1| - 4)];
        assert m2[i] == m2[|k2| - 4..][i - (|k2| - 4)];
      }
    }
  }

  // ---------------------------------------------------------------------
  // _retry_api_call
  // ---------------------------------------------------------------------

  /** What one invocation of the wrapped call did: returned a value, or raised an exception with a message. */
  datatype Attempt<T> = Succeeded(value: T) | Raised(error: string)

  /**
   * How `_retry_api_call` ends: it returns the first value, re-raises the last
   * exception, or (for a negative `max_retries`) never enters its loop and
   * returns `None`.
   */
  datatype RetryOutcome<T> = Returned(value: T) | Reraised(error: string) | FellThrough

  datatype RetryRun<T> = RetryRun(outcome: RetryOutcome<T>, attempts: nat, delays: seq<int>)

  const DefaultMaxRetries: int := 3
  const DefaultInitialDelay: int := 1

  function Pow2(n: nat): nat {
    if n == 0 then 1 else 2 * Pow2(n - 1)
  }

  /** The first `n` backoff delays: `initialDelay * 2^k` before retry k + 1. */
  function Backoff(initialDelay: int, n: nat): (ds: seq<int>)
    ensures |ds| == n
    ensures forall k :: 0 <= k < n ==> ds[k] == initialDelay * Pow2(k)
  {
    seq(n, k requires 0 <= k < n => initialDelay * Pow2(k))
  }

  /** Index of the first successful invocation in [from, limit), or `limit`. */
  function FirstSuccess<T>(call: nat -> Attempt<T>, from: nat, limit: nat): (k: nat)
    requires from <= limit
    decreases limit - from
    ensures from <= k <= limit
    ensures forall j :: from <= j < k ==> call(j).Raised?
    ensures k < limit ==> call(k).Succeeded?
  {
    if from == limit || call(from).Succeeded? then from else FirstSuccess(call, from + 1, limit)
  }

  /** What `_retry_api_call(func, maxRetries, initialDelay)` does. */
  function Retry<T>(call: nat -> Attempt<T>, maxRetries: int, initialDelay: int): (run: RetryRun<T>)
    requires initialDelay >= 0
    ensures maxRetries < 0 ==> run == RetryRun(FellThrough, 0, [])
    ensures maxRetries >= 0 ==> 1 <= run.attempts <= maxRetries + 1 && !run.outcome.FellThrough?
    ensures forall j :: 0 <= j < run.attempts - 1 ==> call(j).Raised?
    ensures run.outcome.Returned? ==> call(run.attempts - 1) == Succeeded(run.outcome.value)
    ensures run.outcome.Reraised? ==>
              run.attempts == maxRetries + 1 && call(maxRetries) == Raised(run.outcome.error)
    ensures maxRetries >= 0 ==>
              (run.outcome.Reraised? <==> forall j :: 0 <= j <= maxRetries ==> call(j).Raised?)
    ensures run.delays == Backoff(initialDelay, if run.attempts == 0 then 0 else run.attempts - 1)
  {
    if maxRetries < 0 then RetryRun(FellThrough, 0, [])
    else
      var k := FirstSuccess(call, 0, maxRetries + 1);
      if k <= maxRetries then RetryRun(Returned(call(k).value), k + 1, Backoff(initialDelay, k))
      else RetryRun(Reraised(call(maxRetries).error), maxRetries + 1, Backoff(initialDelay, maxRetries))
  }

  /** `_retry_api_call`: invokes `call` until it succeeds, sleeping between failures. */
  method RetryApiCall<T>(call: nat -> Attempt<T>, maxRetries: int, initialDelay: int)
    returns (outcome: RetryOutcome<T>, attempts: nat, delays: seq<int>)
    requires initialDelay >= 0
    ensures RetryRun(outcome, attempts, delays) == Retry(call, maxRetries, initialDelay)
  {
    var retries: nat := 0;
    attempts, delays := 0, [];
    while retries <= maxRetries
      invariant maxRetries >= 0 ==> retries <= maxRetries
      invariant maxRetries < 0 ==> retries == 0
      invariant attempts == retries
      invariant forall j :: 0 <= j < retries ==> call(j).Raised?
      invariant delays == Backoff(initialDelay, retries)
      decreases maxRetries - retries
    {
      var attempt := call(attempts);
      attempts := attempts + 1;
      if attempt.Succeeded? {
        assert FirstSuccess(call, 0, maxRetries + 1) == retries by {
          FirstSuccessAt(call, retries, maxRetries + 1);
        }
        return Returned(attempt.value), attempts, delays;
      }
      retries := retries + 1;
      if retries > maxRetries {
        assert FirstSuccess(call, 0, maxRetries + 1) == maxRetries + 1 by {
          FirstSuccessAt(call, maxRetries + 1, maxRetries + 1);
        }
        return Reraised(attempt.error), attempts, delays;
      }
      delays := delays + [initialDelay * Pow2(retries - 1)];
    }
    outcome := FellThrough;
    assert delays == [];
  }

  /** `FirstSuccess` lands on `k` when every invocation before `k` raised and `k` succeeds or is the limit. */
  lemma FirstSuccessAt<T>(call: nat -> Attempt<T>, k: nat, limit: nat)
    requires k <= limit
    requires forall j :: 0 <= j < k ==> call(j).Raised?
    requires k < limit ==> call(k).Succeeded?
    ensures FirstSuccess(call, 0, limit) == k
  {
  }

  function Sum(ds: seq<int>): int {
    if ds == [] then 0 else Sum(ds[..|ds| - 1]) + ds[|ds| - 1]
  }

  /** After n failed attempts the caller has slept `initialDelay * (2^n - 1)` seconds in all. */
  lemma {:induction false} BackoffTotal(initialDelay: int, n: nat)
    ensures Sum(Backoff(initialDelay, n)) == initialDelay * (Pow2(n) - 1)
  {
    if n > 0 {
      BackoffTotal(initialDelay, n - 1);
      assert Backoff(initialDelay, n)[..n - 1] == Backoff(initialDelay, n - 1);
    }
  }

  /** With the defaults, a call that always fails is tried four times with sleeps of 1, 2 and 4 seconds. */
  lemma DefaultScheduleWhenAllFail<T>(call: nat -> Attempt<T>)
    requires forall j :: 0 <= j <= 3 ==> call(j).Raised?
    ensures Retry(call, DefaultMaxRetries, DefaultInitialDelay)
            == RetryRun(Reraised(call(3).error), 4, [1, 2, 4])
  {
    var run := Retry(call, DefaultMaxRetries, DefaultInitialDelay);
    assert run.outcome.Reraised?;
    assert Pow2(1) == 2 && Pow2(2) == 4;
  }

  // ---------------------------------------------------------------------
  // Model calls with their error-string fallbacks
  // ---------------------------------------------------------------------

  const NotAvailableMessage: string :=
    "Error: AI service not available. Please check your GEMINI_API_KEY environment variable."

  /** What reading `.text` of the `None` that a loop-less retry returns raises. */
  const NoneTextError: string := "'NoneType' object has no attribute 'text'"

  const AnalyzeCodePrefix: string := "Error analyzing code: "
  const AnalyzeCommitPrefix: string := "Error analyzing commit: "
  const SummaryPrefix: string := "Error generating repository summary: "
  const AnswerPrefix: string := "Error answering question: "

  /** The text a guarded model call returns for a given retry outcome. */
  function ResponseText(outcome: RetryOutcome<string>, errorPrefix: string): string {
    match outcome
    case Returned(text) => text
    case Reraised(e) => errorPrefix + e
    case FellThrough => errorPrefix + NoneTextError
  }

  /**
   * The text returned by `analyze_code`, `analyze_commit`,
   * `generate_repository_summary` and `answer_question`, which share one
   * shape: the fixed message when no model is configured, else the retried
   * call, whose exception becomes `errorPrefix + message` instead of
   * propagating.
   */
  function ModelCallText(modelAvailable: bool, call: nat -> Attempt<string>, errorPrefix: string): string {
    if !modelAvailable then NotAvailableMessage
    else ResponseText(Retry(call, DefaultMaxRetries, DefaultInitialDelay).outcome, errorPrefix)
  }

  /** The body shared by the four guarded model calls. */
  method GuardedModelCall(modelAvailable: bool, call: nat -> Attempt<string>, errorPrefix: string)
    returns (text: string, delays: seq<int>)
    ensures text == ModelCallText(modelAvailable, call, errorPrefix)
    ensures !modelAvailable ==> delays == []
    ensures modelAvailable ==> delays == Retry(call, DefaultMaxRetries, DefaultInitialDelay).delays
  {
    if !modelAvailable {
      return NotAvailableMessage, [];
    }
    var outcome, attempts;
    outcome, attempts, delays := RetryApiCall(call, DefaultMaxRetries, DefaultInitialDelay);
    text := ResponseText(outcome, errorPrefix);
  }

  /** `analyze_code`: the model's documentation of a file, or an error string. */
  method AnalyzeCode(modelAvailable: bool, call: nat -> Attempt<string>)
    returns (text: string, delays: seq<int>)
    ensures text == ModelCallText(modelAvailable, call, AnalyzeCodePrefix)
    ensures !modelAvailable ==> text == NotAvailableMessage
    ensures modelAvailable ==>
              match Retry(call, DefaultMaxRetries, DefaultInitialDelay).outcome
              case Returned(v) => text == v
              case Reraised(e) => text == AnalyzeCodePrefix + e
              case FellThrough => false
    ensures |delays| <= DefaultMaxRetries
  {
    text, delays := GuardedModelCall(modelAvailable, call, AnalyzeCodePrefix);
  }

  /** `analyze_commit`: the model's description of a commit, or an error string. */
  method AnalyzeCommit(modelAvailable: bool, call: nat -> Attempt<string>)
    returns (text: string, delays: seq<int>)
    ensures text == ModelCallText(modelAvailable, call, AnalyzeCommitPrefix)
    ensures !modelAvailable ==> text == NotAvailableMessage
    ensures modelAvailable ==>
              match Retry(call, DefaultMaxRetries, DefaultInitialDelay).outcome
              case Returned(v) => text == v
              case Reraised(e) => text == AnalyzeCommitPrefix + e
              case FellThrough => false
    ensures |delays| <= DefaultMaxRetries
  {
    text, delays := GuardedModelCall(modelAvailable, call, AnalyzeCommitPrefix);
  }

  /** `generate_repository_summary`: the model's repository summary, or an error string. */
  method GenerateRepositorySummary(modelAvailable: bool, call: nat -> Attempt<string>)
    returns (text: string, delays: seq<int>)
    ensures text == ModelCallText(modelAvailable, call, SummaryPrefix)
    ensures !modelAvailable ==> text == NotAvailableMessage
    ensures modelAvailable ==>
              match Retry(call, DefaultMaxRetries, DefaultInitialDelay).outcome
              case Returned(v) => text == v
              case Reraised(e) => text == SummaryPrefix + e
              case FellThrough => false
    ensures |delays| <= DefaultMaxRetries
  {
    text, delays := GuardedModelCall(modelAvailable, call, SummaryPrefix);
  }

  /** `answer_question`: the model's answer, or an error string. */
  method AnswerQuestion(modelAvailable: bool, call: nat -> Attempt<string>)
    returns (text: string, delays: seq<int>)
    ensures text == ModelCallText(modelAvailable, call, AnswerPrefix)
    ensures !modelAvailable ==> text == NotAvailableMessage
    ensures modelAvailable ==>
              match Retry(call, DefaultMaxRetries, DefaultInitialDelay).outcome
              case Returned(v) => text == v
              case Reraised(e) => text == AnswerPrefix + e
              case FellThrough => false
    ensures |delays| <= DefaultMaxRetries
  {
    text, delays := GuardedModelCall(modelAvailable, call, AnswerPrefix);
  }

  // ---------------------------------------------------------------------
  // generate_mermaid_diagram
  // ---------------------------------------------------------------------

  const MermaidOpen: string := "```mermaid\n"
  const Fence: string := "```"

  /** The diagram `generate_mermaid_diagram` returns when no model is configured. */
  const NotAvailableDiagram: string :=
    MermaidOpen + "    flowchart LR\n        E[Error] -->|AI Service Not Available| M[Check API Key]\n    " + Fence

  /** The diagram `generate_mermaid_diagram` returns on any failure. */
  const FailedDiagram: string :=
    MermaidOpen + "    flowchart LR\n        E[Error] -->|Generation failed| M[Please try again]\n    " + Fence

  const Indent: string := "    "

  predicate IsFenceLine(line: string) {
    StartsWith(line, Fence) || EndsWith(line, Fence)
  }

  /** The lines that are not fence lines, in order. */
  function DropFenceLines(lines: seq<string>): (kept: seq<string>)
    ensures forall l :: l in kept ==> l in lines && !IsFenceLine(l)
    ensures forall l :: l in lines && !IsFenceLine(l) ==> l in kept
  {
    if lines == [] then []
    else (if IsFenceLine(lines[0]) then [] else [lines[0]]) + DropFenceLines(lines[1..])
  }

  /** Filtering a concatenation filters each part. */
  lemma {:induction false} DropFenceLinesAppend(a: seq<string>, b: seq<string>)
    ensures DropFenceLines(a + b) == DropFenceLines(a) + DropFenceLines(b)
    decreases |a|
  {
    if a == [] {
      assert a + b == b;
    } else {
      assert (a + b)[0] == a[0];
      assert (a + b)[1..] == a[1..] + b;
      DropFenceLinesAppend(a[1..], b);
    }
  }

  /** A single line is dropped exactly when it is a fence line. */
  lemma DropFenceLinesOne(line: string)
    ensures DropFenceLines([line]) == if IsFenceLine(line) then [] else [line]
  {
    assert [line][1..] == [];
  }

  /** `generate_mermaid_diagram`'s clean-up: the stripped response, fence lines glued away when it holds a fence. */
  function Unfenced(response: string): (u: string)
    ensures u == [] || (!IsSpace(u[0]) && !IsSpace(u[|u| - 1]))
    ensures !Contains(Strip(response), Fence) ==> u == Strip(response)
  {
    var stripped := Strip(response);
    if Contains(stripped, Fence) then Strip(Concat(DropFenceLines(SplitLines(stripped))))
    else stripped
  }

  /** `generate_mermaid_diagram`'s header rule: `flowchart LR` is added exactly when the text lacks a `flowchart` start. */
  function CleanDiagram(response: string): (d: string)
    ensures StartsWith(d, "flowchart")
    ensures StartsWith(Unfenced(response), "flowchart") ==> d == Unfenced(response)
    ensures !StartsWith(Unfenced(response), "flowchart") ==> d == "flowchart LR\n" + Unfenced(response)
  {
    var unfenced := Unfenced(response);
    if StartsWith(unfenced, "flowchart") then unfenced else "flowchart LR\n" + unfenced
  }

  /** A fence-free response that already opens with `flowchart` is only stripped. */
  lemma CleanKeepsFlowchart(response: string)
    requires !Contains(Strip(response), Fence) && StartsWith(Strip(response), "flowchart")
    ensures CleanDiagram(response) == Strip(response)
  {
  }

  /** Any other fence-free response gets the header in front of its stripped text. */
  lemma CleanAddsHeader(response: string)
    requires !Contains(Strip(response), Fence) && !StartsWith(Strip(response), "flowchart")
    ensures CleanDiagram(response) == "flowchart LR\n" + Strip(response)
  {
  }

  /** A fenced response keeps, in order, the concatenation of its non-fence lines, stripped. */
  lemma CleanFencedResponse(response: string, before: seq<string>, line: string, after: seq<string>)
    requires Contains(Strip(response), Fence)
    requires SplitLines(Strip(response)) == before + [line] + after
    ensures var kept := DropFenceLines(before) + DropFenceLines([line]) + DropFenceLines(after);
            Unfenced(response) == Strip(Concat(kept))
  {
    DropFenceLinesAppend(before + [line], after);
    DropFenceLinesAppend(before, [line]);
  }

  /** One line of the diagram, re-indented as `generate_mermaid_diagram` does. */
  function FormatLine(line: string): string {
    var t := Strip(line);
    if StartsWith(t, "subgraph") || t == "end" then t else Indent + t
  }

  /** Every line re-indented by `FormatLine`, in order. */
  function FormatAll(lines: seq<string>): (formatted: seq<string>)
    ensures |formatted| == |lines|
  {
    if lines == [] then []
    else FormatAll(lines[..|lines| - 1]) + [FormatLine(lines[|lines| - 1])]
  }

  /** The i-th formatted line is the i-th source line, re-indented. */
  lemma {:induction false} FormatAllAt(lines: seq<string>, i: nat)
    requires i < |lines|
    ensures FormatAll(lines)[i] == FormatLine(lines[i])
    decreases |lines|
  {
    var front := lines[..|lines| - 1];
    assert FormatAll(lines) == FormatAll(front) + [FormatLine(lines[|lines| - 1])];
    if i < |lines| - 1 {
      FormatAllAt(front, i);
      assert front[i] == lines[i];
    }
  }

  /** The final result of `generate_mermaid_diagram` for a response text the model returned. */
  function MermaidFromResponse(response: string): string {
    var body := Join(FormatAll(SplitLines(CleanDiagram(response))), "\n");
    if Contains(body, "-->") then MermaidOpen + body + "\n" + Fence else FailedDiagram
  }

  /** The formatting loop of `generate_mermaid_diagram`. */
  method FormatDiagramLines(lines: seq<string>) returns (formatted: seq<string>)
    ensures formatted == FormatAll(lines)
  {
    formatted := [];
    for i := 0 to |lines|
      invariant formatted == FormatAll(lines[..i])
    {
      var line := Strip(lines[i]);
      var next: string;
      if StartsWith(line, "subgraph") {
        next := line;
      } else if line == "end" {
        next := line;
      } else {
        next := Indent + line;
      }
      assert lines[..i + 1][..i] == lines[..i];
      formatted := formatted + [next];
    }
    assert lines[..|lines|] == lines;
  }

  /**
   * `generate_mermaid_diagram`: always a fenced Mermaid block, never an exception;
   * the fixed fallbacks when no model is configured or the call fails.
   */
  method GenerateMermaidDiagram(modelAvailable: bool, call: nat -> Attempt<string>)
    returns (diagram: string, delays: seq<int>)
    ensures StartsWith(diagram, MermaidOpen) && EndsWith(diagram, Fence)
    ensures delays == if modelAvailable then Retry(call, DefaultMaxRetries, DefaultInitialDelay).delays else []
    ensures !modelAvailable ==> diagram == NotAvailableDiagram
    ensures modelAvailable ==>
              match Retry(call, DefaultMaxRetries, DefaultInitialDelay).outcome
              case Returned(response) => diagram == MermaidFromResponse(response)
              case Reraised(_) => diagram == FailedDiagram
              case FellThrough => false
  {
    FallbacksAreFenced();
    if !modelAvailable {
      return NotAvailableDiagram, [];
    }
    var outcome, attempts;
    outcome, attempts, delays := RetryApiCall(call, DefaultMaxRetries, DefaultInitialDelay);
    if !outcome.Returned? {
      return FailedDiagram, delays;
    }
    var cleaned := CleanDiagram(outcome.value);
    var formatted := FormatDiagramLines(SplitLines(cleaned));
    var body := Join(formatted, "\n");
    if !Contains(body, "-->") {
      diagram := FailedDiagram;
    } else {
      diagram := MermaidOpen + body + "\n" + Fence;
    }
    assert diagram == MermaidFromResponse(outcome.value);
    MermaidFromResponseFenced(outcome.value);
  }

  lemma MermaidFromResponseFenced(response: string)
    ensures StartsWith(MermaidFromResponse(response), MermaidOpen)
    ensures EndsWith(MermaidFromResponse(response), Fence)
  {
    FallbacksAreFenced();
    WrappedIsFenced(Join(FormatAll(SplitLines(CleanDiagram(response))), "\n"));
  }

  lemma WrappedIsFenced(body: string)
    ensures StartsWith(MermaidOpen + body + "\n" + Fence, MermaidOpen)
    ensures EndsWith(MermaidOpen + body + "\n" + Fence, Fence)
  {
    var r := MermaidOpen + body + "\n" + Fence;
    assert r[..|MermaidOpen|] == MermaidOpen;
    assert r[|r| - |Fence|..] == Fence;
  }

  lemma FallbacksAreFenced()
    ensures StartsWith(NotAvailableDiagram, MermaidOpen) && EndsWith(NotAvailableDiagram, Fence)
    ensures StartsWith(FailedDiagram, MermaidOpen) && EndsWith(FailedDiagram, Fence)
  {
    assert NotAvailableDiagram[..|MermaidOpen|] == MermaidOpen;
    assert NotAvailableDiagram[|NotAvailableDiagram| - |Fence|..] == Fence;
    assert FailedDiagram[..|MermaidOpen|] == MermaidOpen;
    assert FailedDiagram[|FailedDiagram| - |Fence|..] == Fence;
  }

  /** A successful diagram is a fenced block whose body holds at least one `-->` connection. */
  lemma MermaidResultShape(response: string)
    ensures var r := MermaidFromResponse(response);
            r == FailedDiagram ||
            exists body :: r == MermaidOpen + body + "\n" + Fence && Contains(body, "-->")
  {
  }

  /**
   * When the response holds a fence, the fence-free lines are glued with no
   * separator, so the cleaned diagram has at most two lines: the forced
   * `flowchart LR` header and everything else.
   */
  lemma {:induction false} FencedResponseCollapses(response: string)
    requires Contains(Strip(response), Fence)
    ensures |SplitLines(CleanDiagram(response))| <= 2
  {
    var stripped := Strip(response);
    assert Unfenced(response) == Strip(Concat(DropFenceLines(SplitLines(stripped))));
    var kept := DropFenceLines(SplitLines(stripped));
    forall l | l in kept ensures NoLineBreak(l) { }
    ConcatNoLineBreak(kept);
    var unfenced := Strip(Concat(kept));
    StripKeepsNoLineBreak(Concat(kept));
    if StartsWith(unfenced, "flowchart") {
      SplitLinesOfOneLine(unfenced);
    } else {
      HeaderThenLine(unfenced);
    }
  }

  lemma HeaderThenLine(d: string)
    requires NoLineBreak(d)
    ensures |SplitLines("flowchart LR\n" + d)| <= 2
  {
    var s := "flowchart LR\n" + d;
    var header := "flowchart LR";
    assert NoLineBreak(header);
    assert s[..12] == header && s[12] == '\n';
    assert LineEnd(s) == 12 by {
      LineEndAt(s, 12);
    }
    assert s[13..] == d;
    SplitLinesOfOneLine(d);
  }

  lemma LineEndAt(s: string, n: nat)
    requires n < |s| && NoLineBreak(s[..n]) && IsLineBreak(s[n])
    ensures LineEnd(s) == n
  {
  }

  /** The formatter changes only the whitespace at the two ends of a line: stripping a formatted line gives the stripped source line. */
  lemma FormatLineOnlyIndents(line: string)
    ensures Strip(FormatLine(line)) == Strip(line)
  {
    var t := Strip(line);
    StripOfStripped(t);
    if !(StartsWith(t, "subgraph") || t == "end") {
      IndentStrips(t);
    }
  }

  lemma StripOfStripped(t: string)
    requires t == [] || (!IsSpace(t[0]) && !IsSpace(t[|t| - 1]))
    ensures Strip(t) == t
  {
  }

  lemma IndentStrips(t: string)
    requires t == [] || (!IsSpace(t[0]) && !IsSpace(t[|t| - 1]))
    ensures Strip(Indent + t) == t
  {
    var s := Indent + t;
    assert s[1..] == "   " + t;
    assert s[2..] == "  " + t;
    assert s[3..] == " " + t;
    assert s[4..] == t;
  }
}

=== FILE: chat_service.dfy ===
/**
 * The chat service: keyword retrieval of context from stored documentation,
 * the update-request lookup, and question answering with an append-only
 * conversation log.  The model call is the AI service's retry oracle and
 * clock readings are parameters.
 */
module ChatService {
  import opened Text
  import opened Wrappers
  import opened Sequences
  import AI = AIService
  import DS = DocumentationService

  const NoDocumentationMessage: string := "No documentation available for this repository."

  /** The whitespace-split words of the lowercased query: its maximal runs of non-whitespace. */
  function Keywords(query: string): (ws: seq<string>)
    ensures forall w :: w in ws <==> IsWord(w) && exists i :: WordAt(Lower(query), i, w)
  {
    var lowered := Lower(query);
    assert forall w :: w in Words(lowered) <==> IsWord(w) && exists i :: WordAt(lowered, i, w) by {
      forall w
        ensures w in Words(lowered) <==> IsWord(w) && exists i :: WordAt(lowered, i, w)
      {
        WordsIff(lowered, w);
      }
    }
    Words(lowered)
  }

  /** Python's `any(keyword in text for keyword in keywords)`. */
  predicate AnyKeywordIn(keywords: seq<string>, text: string) {
    exists w :: w in keywords && Contains(text, w)
  }

  /** Whether a file record is relevant: a keyword occurs in its lowercased path or documentation. */
  predicate Relevant(f: DS.FileDoc, keywords: seq<string>) {
    AnyKeywordIn(keywords, Lower(f.filePath)) || AnyKeywordIn(keywords, Lower(f.documentation))
  }

  /** The relevant file records, in stored order. */
  function RelevantFiles(files: seq<DS.FileDoc>, keywords: seq<string>): seq<DS.FileDoc> {
    if files == [] then []
    else
      var f := files[|files| - 1];
      var rest := RelevantFiles(files[..|files| - 1], keywords);
      if Relevant(f, keywords) then rest + [f] else rest
  }

  /** The two blocks one file contributes. */
  function FileBlocks(files: seq<DS.FileDoc>): (blocks: seq<string>)
    ensures |blocks| == 2 * |files|
  {
    if files == [] then []
    else
      var f := files[|files| - 1];
      FileBlocks(files[..|files| - 1]) + ["File: " + f.filePath, f.documentation]
  }

  function HeaderBlocks(repo: DS.RepositoryInfo): seq<string> {
    [ "Repository: " + repo.name,
      "Description: " + DS.PyStr(repo.description),
      "Summary: " + repo.summary ]
  }

  /** The blocks `get_context_for_query` joins for a stored document. */
  function ContextBlocks(doc: DS.Documentation, query: string): seq<string> {
    HeaderBlocks(doc.repository) + FileBlocks(RelevantFiles(doc.files, Keywords(query)))
  }

  /** What `get_context_for_query` returns for what the store holds. */
  function Context(stored: Option<DS.Documentation>, query: string): string {
    match stored
    case None => NoDocumentationMessage
    case Some(doc) => Join(ContextBlocks(doc, query), "\n\n")
  }

  /**
   * The relevant records are exactly the stored records some keyword
   * matches, in stored order.
   */
  lemma {:induction false} RelevantFilesIff(files: seq<DS.FileDoc>, keywords: seq<string>)
    ensures IsSubsequence(RelevantFiles(files, keywords), files)
    ensures forall f :: f in RelevantFiles(files, keywords) <==> f in files && Relevant(f, keywords)
    decreases |files|
  {
    if files != [] {
      var pre, f := files[..|files| - 1], files[|files| - 1];
      RelevantFilesIff(pre, keywords);
      var rest := RelevantFiles(pre, keywords);
      assert files == pre + [f];
      if Relevant(f, keywords) {
        SubsequenceOfItself([f]);
        SubsequenceConcat(rest, pre, [f], [f]);
      } else {
        EmptySubsequence([f]);
        SubsequenceConcat(rest, pre, [], [f]);
        assert rest + [] == rest;
      }
    }
  }

  /** Filtering two runs of records one after the other is filtering each, so multiplicity is kept. */
  lemma {:induction false} RelevantFilesAppend(a: seq<DS.FileDoc>, b: seq<DS.FileDoc>, keywords: seq<string>)
    ensures RelevantFiles(a + b, keywords) == RelevantFiles(a, keywords) + RelevantFiles(b, keywords)
    decreases |b|
  {
    if b == [] {
      assert a + b == a;
    } else {
      var pre := b[..|b| - 1];
      assert (a + b)[..|a + b| - 1] == a + pre;
      RelevantFilesAppend(a, pre, keywords);
    }
  }

  /** A single record is kept exactly when it is relevant. */
  lemma RelevantFilesOne(f: DS.FileDoc, keywords: seq<string>)
    ensures RelevantFiles([f], keywords) == if Relevant(f, keywords) then [f] else []
  {
    assert [f][..0] == [];
  }

  lemma {:induction false} FileBlocksAt(files: seq<DS.FileDoc>, i: nat)
    requires i < |files|
    ensures FileBlocks(files)[2 * i] == "File: " + files[i].filePath
    ensures FileBlocks(files)[2 * i + 1] == files[i].documentation
    decreases |files|
  {
    if i < |files| - 1 {
      FileBlocksAt(files[..|files| - 1], i);
    }
  }

  /**
   * Block layout: the three header blocks, then for each relevant record
   * its `File:` block followed by its documentation.
   */
  lemma ContextLayout(doc: DS.Documentation, query: string)
    ensures var blocks := ContextBlocks(doc, query);
            var rel := RelevantFiles(doc.files, Keywords(query));
            && |blocks| == 3 + 2 * |rel|
            && blocks[0] == "Repository: " + doc.repository.name
            && blocks[1] == "Description: " + DS.PyStr(doc.repository.description)
            && blocks[2] == "Summary: " + doc.repository.summary
            && (forall i :: 0 <= i < |rel| ==>
                  blocks[3 + 2 * i] == "File: " + rel[i].filePath
                  && blocks[4 + 2 * i] == rel[i].documentation)
  {
    var blocks := ContextBlocks(doc, query);
    var rel := RelevantFiles(doc.files, Keywords(query));
    forall i | 0 <= i < |rel|
      ensures blocks[3 + 2 * i] == "File: " + rel[i].filePath
      ensures blocks[4 + 2 * i] == rel[i].documentation
    {
      FileBlocksAt(rel, i);
    }
  }

  /** With no keywords nothing is relevant. */
  lemma {:induction false} NoKeywordsNothingRelevant(files: seq<DS.FileDoc>)
    ensures RelevantFiles(files, []) == []
    decreases |files|
  {
    if files != [] {
      NoKeywordsNothingRelevant(files[..|files| - 1]);
    }
  }

  /** A query of whitespace only yields just the three header blocks. */
  lemma BlankQueryGivesHeaders(doc: DS.Documentation, query: string)
    requires forall i :: 0 <= i < |query| ==> IsSpace(query[i])
    ensures ContextBlocks(doc, query) == HeaderBlocks(doc.repository)
  {
    var lowered := Lower(query);
    assert Keywords(query) == [] by {
      forall i | 0 <= i < |lowered| ensures IsSpace(lowered[i]) {
        assert lowered[i] == LowerChar(query[i]);
      }
      WordsEmptyIffBlank(lowered);
    }
    NoKeywordsNothingRelevant(doc.files);
    assert FileBlocks([]) == [];
    assert HeaderBlocks(doc.repository) + [] == HeaderBlocks(doc.repository);
  }

  /** A relevant record extends the blocks by its two blocks. */
  lemma RelevantStepIn(files: seq<DS.FileDoc>, i: nat, keywords: seq<string>)
    requires i < |files| && Relevant(files[i], keywords)
    ensures FileBlocks(RelevantFiles(files[..i + 1], keywords)) ==
            FileBlocks(RelevantFiles(files[..i], keywords)) + ["File: " + files[i].filePath, files[i].documentation]
  {
    var rel, f := RelevantFiles(files[..i], keywords), files[i];
    assert files[..i + 1][..i] == files[..i];
    assert (rel + [f])[..|rel|] == rel;
  }

  /** An irrelevant record leaves the blocks as they were. */
  lemma RelevantStepOut(files: seq<DS.FileDoc>, i: nat, keywords: seq<string>)
    requires i < |files| && !Relevant(files[i], keywords)
    ensures FileBlocks(RelevantFiles(files[..i + 1], keywords)) == FileBlocks(RelevantFiles(files[..i], keywords))
  {
    assert files[..i + 1][..i] == files[..i];
  }

  lemma ExtendStep(blocks: seq<string>, files: seq<DS.FileDoc>, i: nat, keywords: seq<string>)
    requires i < |files|
    ensures var before, f := blocks + FileBlocks(RelevantFiles(files[..i], keywords)), files[i];
            blocks + FileBlocks(RelevantFiles(files[..i + 1], keywords)) ==
              if Relevant(f, keywords) then before + ["File: " + f.filePath, f.documentation] else before
  {
    if Relevant(files[i], keywords) {
      RelevantStepIn(files, i, keywords);
    } else {
      RelevantStepOut(files, i, keywords);
    }
  }

  /** The answer to an update request. */
  datatype UpdateResponse =
    | UpdateError(message: string)
    | UpdateRequested(message: string, suggestion: string)

  /** A saved conversation: the storage directory, the fields, and the `:`-free timestamp. */
  datatype Conversation =
    Conversation(directory: string, repoName: string, question: string, answer: string, timestamp: string)

  /** What `answer_question` returns. */
  datatype Reply = Reply(question: string, answer: string, repoName: string, timestamp: string)

  /** The timestamp `_save_conversation` puts in the record and the file name. */
  function SavedTimestamp(now: string): (t: string)
    ensures |t| == |now|
  {
    ReplaceChar(now, ':', '-')
  }

  lemma SavedTimestampHasNoColon(now: string)
    ensures ':' !in SavedTimestamp(now)
  {
    ReplaceCharRemoves(now, ':', '-');
  }

  class ChatService {
    /** The documentation service whose store the chat reads. */
    const docs: DS.DocumentationService
    /** Whether the AI service this service was built with has a model. */
    const modelAvailable: bool
    /** Every saved conversation, oldest first. */
    var conversations: seq<Conversation>

    constructor (docs: DS.DocumentationService, modelAvailable: bool)
      ensures this.docs == docs && this.modelAvailable == modelAvailable
      ensures conversations == []
    {
      this.docs := docs;
      this.modelAvailable := modelAvailable;
      conversations := [];
    }

    /** `get_context_for_query`. */
    method GetContextForQuery(repoName: string, query: string) returns (context: string)
      ensures context == Context(DS.Lookup(docs.store, repoName), query)
    {
      var documentation := docs.GetDocumentation(repoName);
      if documentation.None? {
        return NoDocumentationMessage;
      }
      var doc := documentation.value;
      var relevantContext: seq<string> := [];
      relevantContext := relevantContext + ["Repository: " + doc.repository.name];
      relevantContext := relevantContext + ["Description: " + DS.PyStr(doc.repository.description)];
      relevantContext := relevantContext + ["Summary: " + doc.repository.summary];
      assert relevantContext == HeaderBlocks(doc.repository);
      var keywords := Words(Lower(query));
      relevantContext := AppendRelevantFiles(relevantContext, doc.files, keywords);
      assert relevantContext == ContextBlocks(doc, query);
      context := Join(relevantContext, "\n\n");
    }

    /** The loop of `get_context_for_query` over the stored file records. */
    method AppendRelevantFiles(relevantContext: seq<string>, files: seq<DS.FileDoc>, keywords: seq<string>)
      returns (extended: seq<string>)
      ensures extended == relevantContext + FileBlocks(RelevantFiles(files, keywords))
    {
      extended := relevantContext;
      assert files[..0] == [];
      for i := 0 to |files|
        invariant extended == relevantContext + FileBlocks(RelevantFiles(files[..i], keywords))
      {
        ExtendStep(relevantContext, files, i, keywords);
        extended := AppendIfRelevant(extended, files[i], keywords);
      }
      assert files[..|files|] == files;
    }

    /** One pass of the loop in `get_context_for_query`: both match branches append the same two blocks. */
    method AppendIfRelevant(relevantContext: seq<string>, fileDoc: DS.FileDoc, keywords: seq<string>)
      returns (extended: seq<string>)
      ensures extended == if Relevant(fileDoc, keywords)
                          then relevantContext + ["File: " + fileDoc.filePath, fileDoc.documentation]
                          else relevantContext
    {
      extended := relevantContext;
      if AnyKeywordIn(keywords, Lower(fileDoc.filePath)) {
        extended := extended + ["File: " + fileDoc.filePath];
        extended := extended + [fileDoc.documentation];
      } else if AnyKeywordIn(keywords, Lower(fileDoc.documentation)) {
        extended := extended + ["File: " + fileDoc.filePath];
        extended := extended + [fileDoc.documentation];
      }
    }

    /**
     * `request_documentation_update`: checks that a record for `filePath`
     * exists; the stored documentation is only read.
     */
    method RequestDocumentationUpdate(repoName: string, filePath: string, suggestion: string)
      returns (response: UpdateResponse)
      ensures DS.Lookup(docs.store, repoName).None? ==> response == UpdateError(NoDocumentationMessage)
      ensures DS.Lookup(docs.store, repoName).Some? ==>
                var files := DS.Lookup(docs.store, repoName).value.files;
                if exists i :: 0 <= i < |files| && files[i].filePath == filePath
                then response == UpdateRequested("Documentation update requested for " + filePath, suggestion)
                else response == UpdateError("No documentation found for file: " + filePath)
    {
      var documentation := docs.GetDocumentation(repoName);
      if documentation.None? {
        return UpdateError(NoDocumentationMessage);
      }
      var files := documentation.value.files;
      var fileDoc: Option<DS.FileDoc> := None;
      var i := 0;
      while i < |files|
        invariant 0 <= i <= |files|
        invariant forall j :: 0 <= j < i ==> files[j].filePath != filePath
      {
        if files[i].filePath == filePath {
          fileDoc := Some(files[i]);
          break;
        }
        i := i + 1;
      }
      if fileDoc.None? {
        return UpdateError("No documentation found for file: " + filePath);
      }
      return UpdateRequested("Documentation update requested for " + filePath, suggestion);
    }

    /**
     * `answer_question`: retrieves the context, asks the model and logs
     * exactly one conversation, also when the answer is an error string.
     * `savedAt` and `repliedAt` are the two clock readings.
     */
    method AnswerQuestion(repoName: string, question: string, call: nat -> AI.Attempt<string>,
                          savedAt: string, repliedAt: string)
      returns (reply: Reply)
      modifies this
      ensures reply.question == question && reply.repoName == repoName && reply.timestamp == repliedAt
      ensures reply.answer == AI.ModelCallText(modelAvailable, call, AI.AnswerPrefix)
      ensures conversations == old(conversations) +
                [Conversation(DS.StorageKey(repoName), repoName, question, reply.answer, SavedTimestamp(savedAt))]
    {
      var context := GetContextForQuery(repoName, question);
      var answer, _ := AI.AnswerQuestion(modelAvailable, call);
      SaveConversation(repoName, question, answer, savedAt);
      reply := Reply(question, answer, repoName, repliedAt);
    }

    /** `_save_conversation`: appends one record to the log. */
    method SaveConversation(repoName: string, question: string, answer: string, now: string)
      modifies this
      ensures conversations == old(conversations) +
                [Conversation(DS.StorageKey(repoName), repoName, question, answer, SavedTimestamp(now))]
    {
      var directory := ReplaceChar(repoName, '/', '_');
      var timestamp := ReplaceChar(now, ':', '-');
      conversations := conversations + [Conversation(directory, repoName, question, answer, timestamp)];
    }
  }
}

=== FILE: documentation_service.dfy ===
/**
 * The documentation service: documents each important file through the
 * model, assembles the repository document, renders it as Markdown and
 * keeps it in a store keyed by the repository name with `/` replaced by `_`.
 *
 * GitHub is abstracted away: the repository object is `Option<RepoMeta>`
 * (`None` when `get_repository` raises), the listing is a `Content` tree,
 * and fetching one file's text is the oracle `fetch`.  Model calls are the
 * retry oracles of the AI service; timestamps are parameters.
 */
module DocumentationService {
  import opened Text
  import opened Wrappers
  import opened RepositoryTree
  import opened Sequences
  import AI = AIService

  /** The fields of the GitHub repository object the document records (`description` may be `None`). */
  datatype RepoMeta = RepoMeta(name: string, owner: string, url: string, description: Option<string>)

  /** One `file_docs` record. */
  datatype FileDoc = FileDoc(filePath: string, documentation: string, generatedAt: string)

  datatype RepositoryInfo =
    RepositoryInfo(name: string, owner: string, url: string, description: Option<string>, summary: string)

  /** The documentation dict; `diagrams` holds the `flow` diagram when the key is present. */
  datatype Documentation =
    Documentation(repository: RepositoryInfo, files: seq<FileDoc>, generatedAt: string, diagrams: Option<string>)

  /** What `get_repository_contents(repo, path)` followed by the UTF-8 decode gives for one path. */
  datatype FileFetch = DirectoryListing | FileText(text: string) | FetchFailed

  /** Python's `str()` of an optional string, as an f-string prints it. */
  function PyStr(s: Option<string>): string {
    match s
    case Some(v) => v
    case None => "None"
  }

  // ---------------------------------------------------------------------
  // generate_file_documentation and the file_docs loop
  // ---------------------------------------------------------------------

  /** What `generate_file_documentation` returns for one path. */
  function FileDocFor(path: string, fetched: FileFetch, modelAvailable: bool,
                      call: nat -> AI.Attempt<string>, now: string): Option<FileDoc>
  {
    if fetched.FileText? then
      Some(FileDoc(path, AI.ModelCallText(modelAvailable, call, AI.AnalyzeCodePrefix), now))
    else None
  }

  /** `generate_file_documentation`: `None` for a directory or any failure, else the file's record. */
  method GenerateFileDocumentation(filePath: string, fetched: FileFetch, modelAvailable: bool,
                                   call: nat -> AI.Attempt<string>, now: string)
    returns (doc: Option<FileDoc>)
    ensures doc == FileDocFor(filePath, fetched, modelAvailable, call, now)
    ensures doc.Some? <==> fetched.FileText?
    ensures doc.Some? ==> doc.value.filePath == filePath && doc.value.generatedAt == now
  {
    if fetched.DirectoryListing? {
      return None;
    }
    if fetched.FetchFailed? {
      return None;
    }
    var documentation, _ := AI.AnalyzeCode(modelAvailable, call);
    doc := Some(FileDoc(filePath, documentation, now));
  }

  /** The `file_docs` list: the successful records, in the order of `paths`. */
  function CollectedDocs(paths: seq<string>, fetch: string -> FileFetch, modelAvailable: bool,
                         calls: string -> (nat -> AI.Attempt<string>), clock: string -> string): seq<FileDoc>
  {
    if paths == [] then []
    else
      var p := paths[|paths| - 1];
      var rest := CollectedDocs(paths[..|paths| - 1], fetch, modelAvailable, calls, clock);
      match FileDocFor(p, fetch(p), modelAvailable, calls(p), clock(p))
      case Some(d) => rest + [d]
      case None => rest
  }

  /** The file loop of `generate_repository_documentation`: failures are dropped, not recorded. */
  method CollectFileDocs(paths: seq<string>, fetch: string -> FileFetch, modelAvailable: bool,
                         calls: string -> (nat -> AI.Attempt<string>), clock: string -> string)
    returns (fileDocs: seq<FileDoc>)
    ensures fileDocs == CollectedDocs(paths, fetch, modelAvailable, calls, clock)
  {
    fileDocs := [];
    for i := 0 to |paths|
      invariant fileDocs == CollectedDocs(paths[..i], fetch, modelAvailable, calls, clock)
    {
      var filePath := paths[i];
      assert paths[..i + 1][..i] == paths[..i];
      var fileDoc := GenerateFileDocumentation(filePath, fetch(filePath), modelAvailable,
                                               calls(filePath), clock(filePath));
      if fileDoc.Some? {
        fileDocs := fileDocs + [fileDoc.value];
      }
    }
    assert paths[..|paths|] == paths;
  }

  function DocPaths(docs: seq<FileDoc>): (ps: seq<string>)
    ensures |ps| == |docs|
    ensures forall i :: 0 <= i < |docs| ==> ps[i] == docs[i].filePath
  {
    seq(|docs|, i requires 0 <= i < |docs| => docs[i].filePath)
  }

  /**
   * `file_docs` is exactly the subsequence of the paths whose file could be
   * fetched as text, each record carrying its own path and the model's
   * documentation of it.
   */
  lemma {:induction false} CollectedDocsAreTheSuccesses(paths: seq<string>, fetch: string -> FileFetch,
                                                       modelAvailable: bool,
                                                       calls: string -> (nat -> AI.Attempt<string>),
                                                       clock: string -> string)
    ensures var docs := CollectedDocs(paths, fetch, modelAvailable, calls, clock);
            && IsSubsequence(DocPaths(docs), paths)
            && (forall p :: p in DocPaths(docs) <==> p in paths && fetch(p).FileText?)
            && (forall d :: d in docs ==>
                  d.documentation == AI.ModelCallText(modelAvailable, calls(d.filePath), AI.AnalyzeCodePrefix)
                  && d.generatedAt == clock(d.filePath))
    decreases |paths|
  {
    var docs := CollectedDocs(paths, fetch, modelAvailable, calls, clock);
    if paths == [] {
      EmptySubsequence<string>([]);
    } else {
      var pre, p := paths[..|paths| - 1], paths[|paths| - 1];
      CollectedDocsAreTheSuccesses(pre, fetch, modelAvailable, calls, clock);
      var rest := CollectedDocs(pre, fetch, modelAvailable, calls, clock);
      assert paths == pre + [p];
      if fetch(p).FileText? {
        var d := FileDoc(p, AI.ModelCallText(modelAvailable, calls(p), AI.AnalyzeCodePrefix), clock(p));
        assert docs == rest + [d];
        assert DocPaths(docs) == DocPaths(rest) + [p];
        SubsequenceOfItself([p]);
        SubsequenceConcat(DocPaths(rest), pre, [p], [p]);
      } else {
        assert docs == rest;
        EmptySubsequence([p]);
        SubsequenceConcat(DocPaths(rest), pre, [], [p]);
        assert DocPaths(rest) + [] == DocPaths(rest);
      }
    }
  }

  // ---------------------------------------------------------------------
  // _generate_markdown
  // ---------------------------------------------------------------------

  function HeaderLines(r: RepositoryInfo): (lines: seq<string>)
    ensures |lines| == 15
  {
    [ "# " + r.name + " Documentation", "",
      "## Repository", "",
      "**Name:** " + r.name,
      "**Owner:** " + r.owner,
      "**URL:** " + r.url,
      "**Description:** " + PyStr(r.description), "",
      "## Summary", "",
      r.summary, "",
      "## Files", "" ]
  }

  function FileSection(f: FileDoc): seq<string> {
    ["### " + f.filePath, "", f.documentation, ""]
  }

  function FileLines(files: seq<FileDoc>): (lines: seq<string>)
    ensures |lines| == 4 * |files|
  {
    if files == [] then []
    else FileLines(files[..|files| - 1]) + FileSection(files[|files| - 1])
  }

  function DiagramLines(diagrams: Option<string>): seq<string> {
    match diagrams
    case Some(flow) => ["## Diagrams", "", "### Flow Diagram", "", "```mermaid\n" + flow + "\n```", ""]
    case None => []
  }

  function FooterLines(generatedAt: string): seq<string> {
    ["---", "Generated at: " + generatedAt]
  }

  /** The `md` list `_generate_markdown` builds, section by section. */
  function MarkdownLines(doc: Documentation): seq<string> {
    HeaderLines(doc.repository) + FileLines(doc.files) + DiagramLines(doc.diagrams) + FooterLines(doc.generatedAt)
  }

  /** The Markdown text: the lines joined by newlines. */
  function Markdown(doc: Documentation): string {
    Join(MarkdownLines(doc), "\n")
  }

  /** `_generate_markdown`: appends the sections line by line and joins them. */
  method GenerateMarkdown(doc: Documentation) returns (text: string)
    ensures text == Markdown(doc)
  {
    var repo := doc.repository;
    var md: seq<string> := [];
    md := md + ["# " + repo.name + " Documentation"];
    md := md + [""];
    md := md + ["## Repository"];
    md := md + [""];
    md := md + ["**Name:** " + repo.name];
    md := md + ["**Owner:** " + repo.owner];
    md := md + ["**URL:** " + repo.url];
    md := md + ["**Description:** " + PyStr(repo.description)];
    md := md + [""];
    md := md + ["## Summary"];
    md := md + [""];
    md := md + [repo.summary];
    md := md + [""];
    md := md + ["## Files"];
    md := md + [""];
    assert md == HeaderLines(repo);
    var files := doc.files;
    for i := 0 to |files|
      invariant md == HeaderLines(repo) + FileLines(files[..i])
    {
      assert files[..i + 1][..i] == files[..i];
      md := md + ["### " + files[i].filePath];
      md := md + [""];
      md := md + [files[i].documentation];
      md := md + [""];
    }
    assert files[..|files|] == files;
    ghost var withFiles := md;
    if doc.diagrams.Some? {
      md := md + ["## Diagrams"];
      md := md + [""];
      md := md + ["### Flow Diagram"];
      md := md + [""];
      md := md + ["```mermaid\n" + doc.diagrams.value + "\n```"];
      md := md + [""];
    }
    assert md == withFiles + DiagramLines(doc.diagrams);
    md := md + ["---"];
    md := md + ["Generated at: " + doc.generatedAt];
    assert md == withFiles + DiagramLines(doc.diagrams) + FooterLines(doc.generatedAt);
    text := Join(md, "\n");
  }

  lemma {:induction false} FileLinesAt(files: seq<FileDoc>, i: nat)
    requires i < |files|
    ensures FileLines(files)[4 * i] == "### " + files[i].filePath
    ensures FileLines(files)[4 * i + 2] == files[i].documentation
    decreases |files|
  {
    if i < |files| - 1 {
      FileLinesAt(files[..|files| - 1], i);
    }
  }

  /**
   * The fixed section order: the title first, one `### path` heading per
   * file record in list order, a `## Diagrams` section exactly when the
   * document has diagrams, and the `---` / `Generated at:` footer last.
   */
  lemma MarkdownLayout(doc: Documentation)
    ensures var lines := MarkdownLines(doc);
            var n := |doc.files|;
            && |lines| == 17 + 4 * n + (if doc.diagrams.Some? then 6 else 0)
            && lines[0] == "# " + doc.repository.name + " Documentation"
            && lines[9] == "## Summary" && lines[11] == doc.repository.summary
            && (forall i :: 0 <= i < n ==>
                  lines[15 + 4 * i] == "### " + doc.files[i].filePath
                  && lines[17 + 4 * i] == doc.files[i].documentation)
            && (lines[15 + 4 * n] == "## Diagrams" <==> doc.diagrams.Some?)
            && (doc.diagrams.Some? ==> lines[19 + 4 * n] == "```mermaid\n" + doc.diagrams.value + "\n```")
            && lines[|lines| - 2] == "---"
            && lines[|lines| - 1] == "Generated at: " + doc.generatedAt
  {
    var lines := MarkdownLines(doc);
    var n := |doc.files|;
    var header, body := HeaderLines(doc.repository), FileLines(doc.files);
    forall i | 0 <= i < n
      ensures lines[15 + 4 * i] == "### " + doc.files[i].filePath
      ensures lines[17 + 4 * i] == doc.files[i].documentation
    {
      FileLinesAt(doc.files, i);
      assert lines[15 + 4 * i] == body[4 * i];
      assert lines[17 + 4 * i] == body[4 * i + 2];
    }
    assert "---" != "## Diagrams" by {
      assert "---"[0] != "## Diagrams"[0];
    }
  }

  lemma JoinTwoMore(front: seq<string>, a: string, b: string, sep: string)
    requires |front| > 0
    ensures Join(front + [a] + [b], sep) == Join(front, sep) + sep + a + sep + b
  {
    JoinAppend(front, a, sep);
    JoinAppend(front + [a], b, sep);
  }

  lemma EndsWithLastFour(p: string, w: string, x: string, y: string, z: string)
    ensures EndsWith(p + w + x + y + z, w + x + y + z)
  {
    var t := w + x + y + z;
    assert p + w + x + y + z == p + t;
    assert (p + t)[|p|..] == t;
  }

  lemma JoinEndsWithLastTwo(front: seq<string>, a: string, b: string, sep: string)
    requires |front| > 0
    ensures EndsWith(Join(front + [a] + [b], sep), sep + a + sep + b)
  {
    JoinTwoMore(front, a, b, sep);
    EndsWithLastFour(Join(front, sep), sep, a, sep, b);
  }

  /** The text starts with the title line and ends with the footer. */
  lemma MarkdownText(doc: Documentation)
    ensures StartsWith(Markdown(doc), "# " + doc.repository.name + " Documentation")
    ensures EndsWith(Markdown(doc), "\n---\nGenerated at: " + doc.generatedAt)
  {
    var lines := MarkdownLines(doc);
    var footer := "Generated at: " + doc.generatedAt;
    var front := HeaderLines(doc.repository) + FileLines(doc.files) + DiagramLines(doc.diagrams);
    assert StartsWith(Join(lines, "\n"), "# " + doc.repository.name + " Documentation") by {
      assert lines[0] == HeaderLines(doc.repository)[0];
      JoinStartsWith(lines, "\n");
    }
    assert EndsWith(Join(lines, "\n"), "\n" + "---" + "\n" + footer) by {
      assert lines == front + ["---"] + [footer];
      JoinEndsWithLastTwo(front, "---", footer, "\n");
    }
    assert "\n" + "---" + "\n" + footer == "\n---\nGenerated at: " + doc.generatedAt;
  }

  // ---------------------------------------------------------------------
  // Storage
  // ---------------------------------------------------------------------

  /** The directory name under which a repository's documentation is stored. */
  function StorageKey(repoName: string): (key: string)
    ensures |key| == |repoName| && '/' !in key
    ensures forall i :: 0 <= i < |repoName| && repoName[i] != '/' ==> key[i] == repoName[i]
    ensures forall i :: 0 <= i < |repoName| && repoName[i] == '/' ==> key[i] == '_'
  {
    ReplaceCharRemoves(repoName, '/', '_');
    ReplaceChar(repoName, '/', '_')
  }

  /** Distinct names can share a storage directory: `owner/repo` and `owner_repo` do. */
  lemma StorageKeyCollision()
    ensures StorageKey("a/b") == StorageKey("a_b")
  {
    assert StorageKey("a/b")[1] == '_';
  }

  /** What `get_documentation` finds in a store. */
  function Lookup(store: map<string, Documentation>, repoName: string): Option<Documentation> {
    var key := StorageKey(repoName);
    if key in store then Some(store[key]) else None
  }

  /** A read after a save of the same name returns the saved document; other keys are unaffected. */
  lemma SaveThenGet(store: map<string, Documentation>, saved: string, doc: Documentation, asked: string)
    ensures Lookup(store[StorageKey(saved) := doc], asked) ==
            if StorageKey(asked) == StorageKey(saved) then Some(doc) else Lookup(store, asked)
  {
  }

  class DocumentationService {
    /** Whether the AI service this service was built with has a model. */
    const modelAvailable: bool
    /** `documentation.json` per storage directory. */
    var store: map<string, Documentation>
    /** `documentation.md` per storage directory. */
    var markdown: map<string, string>

    ghost predicate Valid()
      reads this
    {
      store.Keys == markdown.Keys &&
      forall key :: key in store ==> markdown[key] == Markdown(store[key])
    }

    constructor (modelAvailable: bool, stored: map<string, Documentation>)
      ensures Valid()
      ensures this.modelAvailable == modelAvailable && store == stored
    {
      this.modelAvailable := modelAvailable;
      store := stored;
      markdown := map key | key in stored :: Markdown(stored[key]);
    }

    /** `_save_documentation`: writes both the JSON and the Markdown form. */
    method SaveDocumentation(repoName: string, doc: Documentation)
      requires Valid()
      modifies this
      ensures Valid()
      ensures store == old(store)[StorageKey(repoName) := doc]
      ensures markdown == old(markdown)[StorageKey(repoName) := Markdown(doc)]
    {
      var key := ReplaceChar(repoName, '/', '_');
      var md := GenerateMarkdown(doc);
      store := store[key := doc];
      markdown := markdown[key := md];
    }

    /** `get_documentation`. */
    method GetDocumentation(repoName: string) returns (doc: Option<Documentation>)
      ensures doc == Lookup(store, repoName)
    {
      var key := ReplaceChar(repoName, '/', '_');
      if key in store {
        return Some(store[key]);
      }
      return None;
    }

    /**
     * `generate_repository_documentation`: summary, file records and the
     * document, saved under the repository's key; `None` and nothing saved
     * when the repository cannot be fetched.
     */
    method GenerateRepositoryDocumentation(
      repoName: string, repo: Option<RepoMeta>, contents: seq<Content>,
      summaryCall: nat -> AI.Attempt<string>,
      fetch: string -> FileFetch, calls: string -> (nat -> AI.Attempt<string>),
      clock: string -> string, now: string)
      returns (result: Option<Documentation>)
      requires Valid()
      modifies this
      ensures Valid()
      ensures repo.None? ==> result.None? && store == old(store) && markdown == old(markdown)
      ensures repo.Some? ==> result.Some?
      ensures result.Some? ==>
                && result.value.repository == RepositoryInfo(
                     repo.value.name, repo.value.owner, repo.value.url, repo.value.description,
                     AI.ModelCallText(modelAvailable, summaryCall, AI.SummaryPrefix))
                && result.value.files == CollectedDocs(Selected(contents), fetch, modelAvailable, calls, clock)
                && result.value.generatedAt == now
                && result.value.diagrams.None?
                && store == old(store)[StorageKey(repoName) := result.value]
                && markdown == old(markdown)[StorageKey(repoName) := Markdown(result.value)]
    {
      if repo.None? {
        return None;
      }
      var meta := repo.value;
      var structure := BuildRepoStructure(contents);
      var summary, _ := AI.GenerateRepositorySummary(modelAvailable, summaryCall);
      var importantFiles := GetImportantFiles(contents);
      var fileDocs := CollectFileDocs(importantFiles, fetch, modelAvailable, calls, clock);
      var documentation := Documentation(
        RepositoryInfo(meta.name, meta.owner, meta.url, meta.description, summary),
        fileDocs, now, None);
      SaveDocumentation(repoName, documentation);
      result := Some(documentation);
    }

    /**
     * `generate_documentation`: the repository document with its flow
     * diagram attached.  The diagram is added after the save, so the stored
     * document (and its Markdown) has no diagrams.
     */
    method GenerateDocumentation(
      repoName: string, repo: Option<RepoMeta>, contents: seq<Content>,
      diagramCall: nat -> AI.Attempt<string>, summaryCall: nat -> AI.Attempt<string>,
      fetch: string -> FileFetch, calls: string -> (nat -> AI.Attempt<string>),
      clock: string -> string, now: string)
      returns (result: Option<Documentation>)
      requires Valid()
      modifies this
      ensures Valid()
      ensures result.Some? <==> repo.Some?
      ensures repo.None? ==> store == old(store) && markdown == old(markdown)
      ensures result.Some? ==>
                && result.value.repository == RepositoryInfo(
                     repo.value.name, repo.value.owner, repo.value.url, repo.value.description,
                     AI.ModelCallText(modelAvailable, summaryCall, AI.SummaryPrefix))
                && result.value.files == CollectedDocs(Selected(contents), fetch, modelAvailable, calls, clock)
                && result.value.generatedAt == now
                && store == old(store)[StorageKey(repoName) := result.value.(diagrams := None)]
                && markdown == old(markdown)[StorageKey(repoName) := Markdown(result.value.(diagrams := None))]
      ensures result.Some? ==>
                && result.value.diagrams.Some?
                && var diagram := result.value.diagrams.value;
                && StartsWith(diagram, AI.MermaidOpen) && EndsWith(diagram, AI.Fence)
                && (!modelAvailable ==> diagram == AI.NotAvailableDiagram)
                && (modelAvailable ==>
                      match AI.Retry(diagramCall, AI.DefaultMaxRetries, AI.DefaultInitialDelay).outcome
                      case Returned(response) => diagram == AI.MermaidFromResponse(response)
                      case Reraised(_) => diagram == AI.FailedDiagram
                      case FellThrough => false)
    {
      // `analyze_repository` re-raises when the repository cannot be fetched.
      if repo.None? {
        return None;
      }
      var flowDiagram, _ := AI.GenerateMermaidDiagram(modelAvailable, diagramCall);
      var documentation := GenerateRepositoryDocumentation(
        repoName, repo, contents, summaryCall, fetch, calls, clock, now);
      if documentation.None? {
        return None;
      }
      result := Some(documentation.value.(diagrams := Some(flowDiagram)));
    }
  }
}

=== FILE: export_service.dfy ===
/**
 * The export service: the Word path classifies blank-line-separated
 * paragraphs into typed elements, the PDF path extracts `<p>` paragraph
 * texts from the HTML rendering, and the export entry point dispatches on
 * the format name.  The documents are the element lists themselves; the
 * Markdown-to-HTML rendering is an input.
 */
module ExportService {
  import opened Text

  datatype Style = Normal | Code

  /** What `markdown_to_docx` adds to the document, in order. */
  datatype Element = Heading(text: string, level: nat) | Paragraph(text: string, style: Style)

  const CodeFence: string := "```"
  const ParagraphBreak: string := "\n\n"
  const POpen: string := "<p>"
  const PClose: string := "</p>"

  // ---------------------------------------------------------------------
  // markdown_to_docx
  // ---------------------------------------------------------------------

  predicate IsFenced(paragraph: string) {
    StartsWith(paragraph, CodeFence) && EndsWith(paragraph, CodeFence)
  }

  /** Python's `paragraph[3:-3]`: empty when the two fences overlap. */
  function CodeBody(paragraph: string): string {
    if |paragraph| >= 6 then paragraph[3..|paragraph| - 3] else ""
  }

  /** The element one paragraph becomes: the first matching prefix rule wins. */
  function Classify(paragraph: string): Element {
    if StartsWith(paragraph, "# ") then Heading(paragraph[2..], 1)
    else if StartsWith(paragraph, "## ") then Heading(paragraph[3..], 2)
    else if StartsWith(paragraph, "### ") then Heading(paragraph[4..], 3)
    else if IsFenced(paragraph) then Paragraph(CodeBody(paragraph), Code)
    else Paragraph(paragraph, Normal)
  }

  /** The Markdown paragraph an element stands for. */
  function Render(e: Element): string {
    match e
    case Heading(t, level) => Repeat('#', level) + " " + t
    case Paragraph(t, Code) => CodeFence + t + CodeFence
    case Paragraph(t, Normal) => t
  }

  /** A fenced paragraph shorter than two fences, whose text `[3:-3]` loses. */
  predicate ShortFence(paragraph: string) {
    IsFenced(paragraph) && |paragraph| < 6
  }

  /** Classification loses nothing except the text of a short fence. */
  lemma RenderClassify(paragraph: string)
    requires !ShortFence(paragraph)
    ensures Render(Classify(paragraph)) == paragraph
  {
    var p := paragraph;
    if StartsWith(p, "# ") {
      RenderHeading(p, 1);
    } else if StartsWith(p, "## ") {
      RenderHeading(p, 2);
    } else if StartsWith(p, "### ") {
      RenderHeading(p, 3);
    } else if IsFenced(p) {
      RenderFenced(p);
    }
  }

  /** A paragraph opening with `level` hashes and a space is those hashes, the space and its text. */
  lemma RenderHeading(p: string, level: nat)
    requires StartsWith(p, Repeat('#', level) + " ")
    ensures Repeat('#', level) + " " + p[level + 1..] == p
  {
    assert p == p[..level + 1] + p[level + 1..];
  }

  /** A fence of six characters or more is its two fences around its body. */
  lemma RenderFenced(p: string)
    requires IsFenced(p) && |p| >= 6
    ensures CodeFence + CodeBody(p) + CodeFence == p
  {
    assert p[..3] == CodeFence && p[|p| - 3..] == CodeFence;
    assert p == p[..3] + p[3..|p| - 3] + p[|p| - 3..];
  }

  /** A short fence becomes an empty code paragraph. */
  lemma ShortFenceIsEmptyCode(paragraph: string)
    requires ShortFence(paragraph)
    ensures Classify(paragraph) == Paragraph("", Code)
  {
    assert paragraph[0] == '`';
  }

  lemma ClassifyRenderedHeading(t: string, level: nat)
    requires 1 <= level <= 3
    ensures Classify(Repeat('#', level) + " " + t) == Heading(t, level)
  {
    var r := Repeat('#', level) + " " + t;
    if level == 1 {
      assert r[..2] == "# " && r[2..] == t;
    } else if level == 2 {
      assert r[..2] == "##" && r[..3] == "## " && r[3..] == t;
    } else {
      assert r[..2] == "##" && r[..3] == "###" && r[..4] == "### " && r[4..] == t;
    }
  }

  lemma ClassifyRenderedCode(t: string)
    ensures Classify(CodeFence + t + CodeFence) == Paragraph(t, Code)
  {
    var r := CodeFence + t + CodeFence;
    assert r[0] == '`';
    assert r[..3] == CodeFence && r[|r| - 3..] == CodeFence;
    assert r[3..|r| - 3] == t;
  }

  /** Headings of levels 1 to 3, code paragraphs and plain text are recognised again from their Markdown. */
  lemma ClassifyRender(e: Element)
    requires e.Heading? ==> 1 <= e.level <= 3
    requires e.Paragraph? && e.style == Normal ==>
               !StartsWith(e.text, "# ") && !StartsWith(e.text, "## ") && !StartsWith(e.text, "### ")
               && !IsFenced(e.text)
    ensures Classify(Render(e)) == e
  {
    match e
    case Heading(t, level) => ClassifyRenderedHeading(t, level);
    case Paragraph(t, Code) => ClassifyRenderedCode(t);
    case Paragraph(t, Normal) =>
  }

  /** One element per paragraph, in order. */
  function ClassifyAll(paragraphs: seq<string>): (elements: seq<Element>)
    ensures |elements| == |paragraphs|
  {
    if paragraphs == [] then []
    else ClassifyAll(paragraphs[..|paragraphs| - 1]) + [Classify(paragraphs[|paragraphs| - 1])]
  }

  lemma {:induction false} ClassifyAllAt(paragraphs: seq<string>, i: nat)
    requires i < |paragraphs|
    ensures ClassifyAll(paragraphs)[i] == Classify(paragraphs[i])
    decreases |paragraphs|
  {
    if i < |paragraphs| - 1 {
      ClassifyAllAt(paragraphs[..|paragraphs| - 1], i);
    }
  }

  lemma ClassifyAllStep(paragraphs: seq<string>, i: nat)
    requires i < |paragraphs|
    ensures ClassifyAll(paragraphs[..i + 1]) == ClassifyAll(paragraphs[..i]) + [Classify(paragraphs[i])]
  {
    assert paragraphs[..i + 1][..i] == paragraphs[..i];
  }

  /** The elements of the Word document for a Markdown text. */
  function DocxElements(markdown: string): seq<Element> {
    [Heading("Documentation", 0)] + ClassifyAll(Split(markdown, ParagraphBreak))
  }

  /** `markdown_to_docx`: the title heading, then one element per paragraph. */
  method MarkdownToDocx(markdown: string) returns (elements: seq<Element>)
    ensures elements == DocxElements(markdown)
  {
    elements := [Heading("Documentation", 0)];
    var paragraphs := Split(markdown, ParagraphBreak);
    for i := 0 to |paragraphs|
      invariant elements == [Heading("Documentation", 0)] + ClassifyAll(paragraphs[..i])
    {
      var paragraph := paragraphs[i];
      ClassifyAllStep(paragraphs, i);
      ghost var before := elements;
      if StartsWith(paragraph, "# ") {
        elements := elements + [Heading(paragraph[2..], 1)];
      } else if StartsWith(paragraph, "## ") {
        elements := elements + [Heading(paragraph[3..], 2)];
      } else if StartsWith(paragraph, "### ") {
        elements := elements + [Heading(paragraph[4..], 3)];
      } else if StartsWith(paragraph, CodeFence) && EndsWith(paragraph, CodeFence) {
        var code := if |paragraph| >= 6 then paragraph[3..|paragraph| - 3] else "";
        elements := elements + [Paragraph(code, Code)];
      } else {
        elements := elements + [Paragraph(paragraph, Normal)];
      }
      assert elements == before + [Classify(paragraph)];
    }
    assert paragraphs[..|paragraphs|] == paragraphs;
  }

  /** The document opens with the level-0 title and has one element per paragraph after it. */
  lemma DocxLayout(markdown: string)
    ensures var elements, paragraphs := DocxElements(markdown), Split(markdown, ParagraphBreak);
            && |elements| == 1 + |paragraphs|
            && elements[0] == Heading("Documentation", 0)
            && forall i :: 0 <= i < |paragraphs| ==> elements[i + 1] == Classify(paragraphs[i])
  {
    var paragraphs := Split(markdown, ParagraphBreak);
    forall i | 0 <= i < |paragraphs|
      ensures DocxElements(markdown)[i + 1] == Classify(paragraphs[i])
    {
      ClassifyAllAt(paragraphs, i);
    }
  }

  function RenderAll(elements: seq<Element>): (paragraphs: seq<string>)
    ensures |paragraphs| == |elements|
  {
    if elements == [] then []
    else RenderAll(elements[..|elements| - 1]) + [Render(elements[|elements| - 1])]
  }

  lemma {:induction false} RenderClassifyAll(paragraphs: seq<string>)
    requires forall p :: p in paragraphs ==> !ShortFence(p)
    ensures RenderAll(ClassifyAll(paragraphs)) == paragraphs
    decreases |paragraphs|
  {
    if paragraphs != [] {
      var pre := paragraphs[..|paragraphs| - 1];
      RenderClassifyAll(pre);
      RenderClassify(paragraphs[|paragraphs| - 1]);
      assert ClassifyAll(paragraphs)[..|pre|] == ClassifyAll(pre);
    }
  }

  /**
   * Rendering the body elements back and joining them with blank lines
   * restores the Markdown text, unless some paragraph is a short fence.
   */
  lemma DocxRoundTrip(markdown: string)
    requires forall p :: p in Split(markdown, ParagraphBreak) ==> !ShortFence(p)
    ensures Join(RenderAll(DocxElements(markdown)[1..]), ParagraphBreak) == markdown
  {
    var paragraphs := Split(markdown, ParagraphBreak);
    assert DocxElements(markdown)[1..] == ClassifyAll(paragraphs);
    RenderClassifyAll(paragraphs);
    JoinSplit(markdown, ParagraphBreak);
  }

  // ---------------------------------------------------------------------
  // markdown_to_pdf
  // ---------------------------------------------------------------------

  /** The text before the first `</p>` of a segment. */
  function CellText(segment: string): string {
    Split(segment, PClose)[0]
  }

  /** The cells written for the segments of the HTML split on `<p>`. */
  function PdfCells(segments: seq<string>): seq<string> {
    if segments == [] then []
    else
      var last := segments[|segments| - 1];
      var rest := PdfCells(segments[..|segments| - 1]);
      if Contains(last, PClose) then rest + [CellText(last)] else rest
  }

  /** `markdown_to_pdf`, given the HTML the Markdown library renders. */
  method MarkdownToPdf(html: string) returns (cells: seq<string>)
    ensures cells == PdfCells(Split(html, POpen))
  {
    cells := [];
    var segments := Split(html, POpen);
    for i := 0 to |segments|
      invariant cells == PdfCells(segments[..i])
    {
      var line := segments[i];
      assert segments[..i + 1][..i] == segments[..i];
      if Contains(line, PClose) {
        var text := Split(line, PClose)[0];
        cells := cells + [text];
      }
    }
    assert segments[..|segments|] == segments;
  }

  /** A segment that closes a paragraph is its cell text followed by `</p>`, and the text holds no `</p>`. */
  lemma CellTextShape(segment: string)
    requires Contains(segment, PClose)
    ensures StartsWith(segment, CellText(segment) + PClose)
    ensures !Contains(CellText(segment), PClose)
  {
    var k := IndexOf(segment, PClose);
    assert CellText(segment) == segment[..k];
    assert segment[..k + |PClose|] == segment[..k] + PClose;
    SplitPiecesAvoidSeparator(segment, PClose);
  }

  lemma PrefixAvoids(s: string, t: string, sub: string)
    requires StartsWith(s, t) && !Contains(s, sub)
    ensures !Contains(t, sub)
  {
    forall i | 0 <= i <= |t| - |sub| && OccursAt(t, sub, i) ensures false {
      assert s[i..i + |sub|] == t[i..i + |sub|];
      assert OccursAt(s, sub, i);
    }
  }

  /** No cell contains a paragraph tag. */
  lemma {:induction false} PdfCellsHaveNoTags(segments: seq<string>)
    requires forall s :: s in segments ==> !Contains(s, POpen)
    ensures forall c :: c in PdfCells(segments) ==> !Contains(c, POpen) && !Contains(c, PClose)
    decreases |segments|
  {
    if segments != [] {
      var last := segments[|segments| - 1];
      PdfCellsHaveNoTags(segments[..|segments| - 1]);
      if Contains(last, PClose) {
        CellTextShape(last);
        PrefixAvoids(last, CellText(last), POpen);
      }
    }
  }

  /** Every cell the PDF path writes is free of `<p>` and `</p>`. */
  lemma PdfTextHasNoTags(html: string)
    ensures forall c :: c in PdfCells(Split(html, POpen)) ==> !Contains(c, POpen) && !Contains(c, PClose)
  {
    SplitPiecesAvoidSeparator(html, POpen);
    PdfCellsHaveNoTags(Split(html, POpen));
  }

  // ---------------------------------------------------------------------
  // export_documentation
  // ---------------------------------------------------------------------

  datatype Export =
    | PdfExport(cells: seq<string>)
    | DocxExport(elements: seq<Element>)
    | UnsupportedFormat(message: string)

  /**
   * `export_documentation`: the lowercased format name picks the path;
   * any other name is the `ValueError` with its message.  `html` is the
   * Markdown library's rendering of `content`.
   */
  method ExportDocumentation(content: string, html: string, formatType: string) returns (r: Export)
    ensures Lower(formatType) == "pdf" ==> r == PdfExport(PdfCells(Split(html, POpen)))
    ensures Lower(formatType) == "docx" ==> r == DocxExport(DocxElements(content))
    ensures Lower(formatType) != "pdf" && Lower(formatType) != "docx" ==>
              r == UnsupportedFormat("Unsupported format: " + formatType + ". Supported formats: pdf, docx")
  {
    if Lower(formatType) == "pdf" {
      var cells := MarkdownToPdf(html);
      return PdfExport(cells);
    } else if Lower(formatType) == "docx" {
      var elements := MarkdownToDocx(content);
      return DocxExport(elements);
    }
    return UnsupportedFormat("Unsupported format: " + formatType + ". Supported formats: pdf, docx");
  }

  /** The format name is matched regardless of letter case. */
  lemma FormatNameCaseInsensitive()
    ensures Lower("PDF") == "pdf" && Lower("Pdf") == "pdf"
    ensures Lower("DOCX") == "docx" && Lower("DocX") == "docx"
    ensures Lower("txt") != "pdf" && Lower("txt") != "docx"
  {
    assert Lower("txt")[0] == 't';
  }
}

=== FILE: repository_tree.dfy ===
/**
 * The repository listing as the documentation service walks it, the choice
 * of files worth documenting (`_get_important_files`) and the nested
 * structure handed to the summary prompt (`_build_repo_structure`).
 *
 * A GitHub contents listing is a tree of `Content` entries; the listing of a
 * directory, which the source fetches with one more `get_repository_contents`
 * call per directory, is held in that entry's `children`.
 */
module RepositoryTree {
  import opened Text
  import opened Sequences

  /** The `type` of a contents entry; everything but `Dir` is handled as a file. */
  datatype Kind = Dir | File | Symlink | Submodule

  datatype Content = Content(name: string, path: string, kind: Kind, size: nat, children: seq<Content>)

  /** Directory names (lowercased) that the selector never descends into. */
  const SkippedDirNames: seq<string> := [".git", "node_modules", "venv", "dist", "build"]

  /** File names (lowercased) that are always documented. */
  const SpecialFileNames: seq<string> := ["readme.md", "contributing.md", "license", "dockerfile", ".env.example"]

  /** Extensions (lowercased) of the code files that are documented. */
  const CodeExtensions: seq<string> :=
    [".py", ".js", ".jsx", ".ts", ".tsx", ".go", ".java", ".rb", ".php", ".c", ".cpp", ".h", ".hpp"]

  predicate IsSkippedDir(name: string) {
    Lower(name) in SkippedDirNames
  }

  function LastIndexOf(s: string, c: char): (k: int)
    ensures -1 <= k < |s|
    ensures k >= 0 ==> s[k] == c
    ensures forall j :: k < j < |s| ==> s[j] != c
  {
    if s == [] then -1
    else if s[|s| - 1] == c then |s| - 1
    else LastIndexOf(s[..|s| - 1], c)
  }

  /**
   * `os.path.splitext(p)[1]`: the text from the last dot of the final path
   * component, unless everything before that dot in the component is dots.
   */
  function Extension(p: string): (ext: string)
    ensures ext == "" || (ext[0] == '.' && EndsWith(p, ext))
    ensures forall j :: 0 < j < |ext| ==> ext[j] != '.' && ext[j] != '/'
  {
    var sepIndex := LastIndexOf(p, '/');
    var dotIndex := LastIndexOf(p, '.');
    if dotIndex > sepIndex && exists i :: sepIndex + 1 <= i < dotIndex && p[i] != '.' then
      p[dotIndex..]
    else ""
  }

  /**
   * The extension is non-empty exactly when the final path component holds
   * a dot that comes after some character other than a dot.
   */
  lemma ExtensionNonEmptyIff(p: string)
    ensures Extension(p) != "" <==>
              exists i, j :: 0 <= i < j < |p| && p[i] != '.' && p[j] == '.' && '/' !in p[i..]
  {
    var sepIndex := LastIndexOf(p, '/');
    var dotIndex := LastIndexOf(p, '.');
    if Extension(p) != "" {
      var i :| sepIndex + 1 <= i < dotIndex && p[i] != '.';
      assert '/' !in p[i..] by {
        forall k | 0 <= k < |p[i..]| ensures p[i..][k] != '/' {
          assert p[i..][k] == p[i + k];
        }
      }
      assert p[dotIndex] == '.';
    }
    if exists i, j :: 0 <= i < j < |p| && p[i] != '.' && p[j] == '.' && '/' !in p[i..] {
      var i, j :| 0 <= i < j < |p| && p[i] != '.' && p[j] == '.' && '/' !in p[i..];
      assert sepIndex + 1 <= i < dotIndex;
    }
  }

  /** Whether `_get_important_files` keeps a (non-directory) entry with this name. */
  predicate IsImportantFile(name: string) {
    Lower(name) in SpecialFileNames || Extension(Lower(name)) in CodeExtensions
  }

  /** Leading dots do not start an extension, so dot-files are kept only by name. */
  lemma ExtensionExamples()
    ensures Extension("main.py") == ".py"
    ensures Extension("archive.tar.gz") == ".gz"
    ensures Extension(".py") == ""
    ensures Extension("makefile") == ""
  {
    assert LastIndexOf("main.py", '.') == 4;
    assert "main.py"[0] != '.';
    assert LastIndexOf("archive.tar.gz", '.') == 11;
    assert "archive.tar.gz"[0] != '.';
    assert LastIndexOf(".py", '.') == 0;
  }

  // ---------------------------------------------------------------------
  // _get_important_files
  // ---------------------------------------------------------------------

  /** The paths `process_contents` returns for a listing, in listing order. */
  function Selected(items: seq<Content>): seq<string>
    decreases items
  {
    if items == [] then []
    else Selected(items[..|items| - 1]) + SelectedFrom(items[|items| - 1])
  }

  /** The paths one entry contributes: its selected descendants, or itself, or nothing. */
  function SelectedFrom(c: Content): seq<string>
    decreases c
  {
    if c.kind == Dir then
      if IsSkippedDir(c.name) then [] else Selected(c.children)
    else if IsImportantFile(c.name) then [c.path]
    else []
  }

  /** `process_contents`: walks the listing, skipping vendored directories. */
  method ProcessContents(items: seq<Content>) returns (files: seq<string>)
    ensures files == Selected(items)
    decreases items
  {
    files := [];
    for i := 0 to |items|
      invariant files == Selected(items[..i])
    {
      var content := items[i];
      assert items[..i + 1][..i] == items[..i];
      if content.kind == Dir {
        if Lower(content.name) in SkippedDirNames {
          continue;
        }
        var sub := ProcessContents(content.children);
        files := files + sub;
      } else {
        var lowered := Lower(content.name);
        var ext := Extension(lowered);
        if lowered in SpecialFileNames {
          files := files + [content.path];
        } else if ext in CodeExtensions {
          files := files + [content.path];
        }
      }
    }
    assert items[..|items|] == items;
  }

  /** `_get_important_files`. */
  method GetImportantFiles(contents: seq<Content>) returns (files: seq<string>)
    ensures files == Selected(contents)
  {
    files := ProcessContents(contents);
  }

  /** Entries the walk visits: everything not below a skipped directory. */
  ghost predicate Reachable(c: Content, items: seq<Content>)
    decreases items
  {
    items != [] && (Reachable(c, items[..|items| - 1]) || ReachableFrom(c, items[|items| - 1]))
  }

  ghost predicate ReachableFrom(c: Content, d: Content)
    decreases d
  {
    c == d || (d.kind == Dir && !IsSkippedDir(d.name) && Reachable(c, d.children))
  }

  /** A selected entry: a reachable non-directory whose name makes it important. */
  ghost predicate SelectedEntry(c: Content, items: seq<Content>) {
    Reachable(c, items) && c.kind != Dir && IsImportantFile(c.name)
  }

  /**
   * A path is selected exactly when it is the path of a reachable
   * non-directory entry whose name is special or has a code extension.
   */
  lemma {:induction false} SelectedIff(items: seq<Content>, p: string)
    ensures p in Selected(items) <==> exists c :: SelectedEntry(c, items) && c.path == p
    decreases items
  {
    if items != [] {
      var pre, last := items[..|items| - 1], items[|items| - 1];
      SelectedIff(pre, p);
      SelectedFromIff(last, p);
      if p in Selected(items) {
        if p in Selected(pre) {
          var c :| SelectedEntry(c, pre) && c.path == p;
          assert SelectedEntry(c, items);
        } else {
          var c :| ReachableFrom(c, last) && c.kind != Dir && IsImportantFile(c.name) && c.path == p;
          assert SelectedEntry(c, items);
        }
      }
      if exists c :: SelectedEntry(c, items) && c.path == p {
        var c :| SelectedEntry(c, items) && c.path == p;
        if Reachable(c, pre) {
          assert SelectedEntry(c, pre);
        }
      }
    }
  }

  lemma {:induction false} SelectedFromIff(d: Content, p: string)
    ensures p in SelectedFrom(d) <==>
            exists c :: ReachableFrom(c, d) && c.kind != Dir && IsImportantFile(c.name) && c.path == p
    decreases d
  {
    if d.kind == Dir && !IsSkippedDir(d.name) {
      SelectedIff(d.children, p);
      if p in SelectedFrom(d) {
        var c :| SelectedEntry(c, d.children) && c.path == p;
        assert ReachableFrom(c, d);
      }
      if exists c :: ReachableFrom(c, d) && c.kind != Dir && IsImportantFile(c.name) && c.path == p {
        var c :| ReachableFrom(c, d) && c.kind != Dir && IsImportantFile(c.name) && c.path == p;
        assert SelectedEntry(c, d.children);
      }
    }
  }

  lemma {:induction false} SelectedConcat(a: seq<Content>, b: seq<Content>)
    ensures Selected(a + b) == Selected(a) + Selected(b)
    decreases |b|
  {
    if b == [] {
      assert a + b == a;
    } else {
      var b' := b[..|b| - 1];
      SelectedConcat(a, b');
      assert (a + b)[..|a + b| - 1] == a + b';
      assert (a + b)[|a + b| - 1] == b[|b| - 1];
    }
  }

  /** What lies inside a skipped directory never influences the selection. */
  lemma SkippedDirContentsIrrelevant(before: seq<Content>, d: Content, after: seq<Content>, other: seq<Content>)
    requires d.kind == Dir && IsSkippedDir(d.name)
    ensures Selected(before + [d] + after) == Selected(before + [d.(children := other)] + after)
    ensures Selected(before + [d] + after) == Selected(before) + Selected(after)
  {
    var d' := d.(children := other);
    SelectedConcat(before + [d], after);
    SelectedConcat(before, [d]);
    SelectedConcat(before + [d'], after);
    SelectedConcat(before, [d']);
    assert [d][..0] == [] && [d'][..0] == [];
  }

  // ---------------------------------------------------------------------
  // Order and uniqueness: a subsequence of the pre-order listing
  // ---------------------------------------------------------------------

  /** Every path of the listing in depth-first pre-order (a directory before its contents). */
  function AllPaths(items: seq<Content>): seq<string>
    decreases items
  {
    if items == [] then []
    else AllPaths(items[..|items| - 1]) + NodePaths(items[|items| - 1])
  }

  function NodePaths(d: Content): seq<string>
    decreases d
  {
    [d.path] + (if d.kind == Dir then AllPaths(d.children) else [])
  }

  /**
   * The selected paths appear in depth-first pre-order, respecting the
   * order of every listing: they are a subsequence of all listed paths.
   */
  lemma {:induction false} SelectedInListingOrder(items: seq<Content>)
    ensures IsSubsequence(Selected(items), AllPaths(items))
    decreases items
  {
    if items != [] {
      var pre, last := items[..|items| - 1], items[|items| - 1];
      SelectedInListingOrder(pre);
      SelectedFromInListingOrder(last);
      SubsequenceConcat(Selected(pre), AllPaths(pre), SelectedFrom(last), NodePaths(last));
    }
  }

  lemma {:induction false} SelectedFromInListingOrder(d: Content)
    ensures IsSubsequence(SelectedFrom(d), NodePaths(d))
    decreases d
  {
    if d.kind == Dir {
      if IsSkippedDir(d.name) {
        EmptySubsequence(NodePaths(d));
      } else {
        SelectedInListingOrder(d.children);
        SubsequenceExtend(Selected(d.children), AllPaths(d.children), d.path);
      }
    } else if IsImportantFile(d.name) {
      SubsequenceOfItself([d.path]);
    } else {
      EmptySubsequence(NodePaths(d));
    }
  }

  /** Paths are unique in a GitHub listing, so no path is selected twice. */
  lemma SelectedHasNoDuplicates(items: seq<Content>)
    requires NoDuplicates(AllPaths(items))
    ensures NoDuplicates(Selected(items))
  {
    SelectedInListingOrder(items);
    SubsequenceNoDuplicates(Selected(items), AllPaths(items));
  }

  // ---------------------------------------------------------------------
  // _build_repo_structure
  // ---------------------------------------------------------------------

  /** One entry of the structure: a `'directory'` dict with its `contents`, or a `'file'` dict with its `size`. */
  datatype Entry =
    | DirectoryEntry(name: string, path: string, contents: seq<Entry>)
    | FileEntry(name: string, path: string, size: nat)

  function Structure(items: seq<Content>): seq<Entry>
    decreases items
  {
    if items == [] then []
    else Structure(items[..|items| - 1]) + [StructureOf(items[|items| - 1])]
  }

  function StructureOf(c: Content): Entry
    decreases c
  {
    if c.kind == Dir then DirectoryEntry(c.name, c.path, Structure(c.children))
    else FileEntry(c.name, c.path, c.size)
  }

  /** `_build_repo_structure`: one entry per listed item, recursing into every directory. */
  method BuildRepoStructure(items: seq<Content>) returns (structure: seq<Entry>)
    ensures structure == Structure(items)
    decreases items
  {
    structure := [];
    for i := 0 to |items|
      invariant structure == Structure(items[..i])
    {
      var content := items[i];
      assert items[..i + 1][..i] == items[..i];
      if content.kind == Dir {
        var dirStructure := BuildRepoStructure(content.children);
        structure := structure + [DirectoryEntry(content.name, content.path, dirStructure)];
      } else {
        structure := structure + [FileEntry(content.name, content.path, content.size)];
      }
    }
    assert items[..|items|] == items;
  }

  /**
   * The structure mirrors the listing one to one and in order, skipped
   * directory names included.
   */
  lemma {:induction false} StructureMirrorsListing(items: seq<Content>, i: nat)
    requires i < |items|
    ensures |Structure(items)| == |items|
    ensures Structure(items)[i].name == items[i].name
    ensures Structure(items)[i].path == items[i].path
    ensures Structure(items)[i].DirectoryEntry? <==> items[i].kind == Dir
    ensures items[i].kind == Dir ==> Structure(items)[i].contents == Structure(items[i].children)
    ensures items[i].kind != Dir ==> Structure(items)[i].size == items[i].size
    decreases |items|
  {
    StructureLength(items);
    if i < |items| - 1 {
      StructureMirrorsListing(items[..|items| - 1], i);
    }
  }

  lemma {:induction false} StructureLength(items: seq<Content>)
    ensures |Structure(items)| == |items|
    decreases |items|
  {
    if items != [] {
      StructureLength(items[..|items| - 1]);
    }
  }

  /** The listing a structure describes: directories get size 0, files no children. */
  function Listing(entries: seq<Entry>): seq<Content>
    decreases entries
  {
    if entries == [] then []
    else Listing(entries[..|entries| - 1]) + [ListingOf(entries[|entries| - 1])]
  }

  function ListingOf(e: Entry): Content
    decreases e
  {
    match e
    case DirectoryEntry(name, path, contents) => Content(name, path, Dir, 0, Listing(contents))
    case FileEntry(name, path, size) => Content(name, path, File, size, [])
  }

  /** A listing of directories and files only (no symlinks or submodules): directories have size 0, files have no children. */
  ghost predicate WellFormed(items: seq<Content>)
    decreases items
  {
    forall i :: 0 <= i < |items| ==> WellFormedEntry(items[i])
  }

  ghost predicate WellFormedEntry(c: Content)
    decreases c
  {
    if c.kind == Dir then c.size == 0 && WellFormed(c.children)
    else c.kind == File && c.children == []
  }

  /** The structure loses nothing of a well-formed listing: the listing can be rebuilt from it. */
  lemma {:induction false} StructureRoundTrip(items: seq<Content>)
    requires WellFormed(items)
    ensures Listing(Structure(items)) == items
    decreases items
  {
    if items != [] {
      var pre, last := items[..|items| - 1], items[|items| - 1];
      assert WellFormed(pre) by {
        forall i | 0 <= i < |pre| ensures WellFormedEntry(pre[i]) {
          assert pre[i] == items[i];
        }
      }
      StructureRoundTrip(pre);
      assert WellFormedEntry(last);
      if last.kind == Dir {
        StructureRoundTrip(last.children);
      }
      var s := Structure(items);
      assert s[..|s| - 1] == Structure(pre);
      assert s[|s| - 1] == StructureOf(last);
      assert items == pre + [last];
    }
  }
}

=== FILE: sequences.dfy ===
/**
 * Generic facts about sequences: order-preserving deletion (subsequences)
 * and distinct elements, used to state that filters keep their input order.
 */
module Sequences {
  /** `a` is obtained from `b` by deleting elements. */
  predicate IsSubsequence<T(==)>(a: seq<T>, b: seq<T>)
    decreases |b|
  {
    a == [] || (b != [] && ((a[0] == b[0] && IsSubsequence(a[1..], b[1..])) || IsSubsequence(a, b[1..])))
  }

  predicate NoDuplicates<T(==)>(s: seq<T>) {
    forall i, j :: 0 <= i < j < |s| ==> s[i] != s[j]
  }

  lemma {:induction false} SubsequenceExtend<T>(a: seq<T>, b: seq<T>, x: T)
    requires IsSubsequence(a, b)
    ensures IsSubsequence(a, [x] + b)
  {
    assert ([x] + b)[1..] == b;
  }

  lemma {:induction false} SubsequenceConcat<T>(a1: seq<T>, b1: seq<T>, a2: seq<T>, b2: seq<T>)
    requires IsSubsequence(a1, b1) && IsSubsequence(a2, b2)
    ensures IsSubsequence(a1 + a2, b1 + b2)
    decreases |b1|
  {
    if b1 == [] {
      assert a1 == [];
      assert a1 + a2 == a2 && b1 + b2 == b2;
    } else {
      assert (b1 + b2)[1..] == b1[1..] + b2;
      if a1 != [] && a1[0] == b1[0] && IsSubsequence(a1[1..], b1[1..]) {
        SubsequenceConcat(a1[1..], b1[1..], a2, b2);
        assert (a1 + a2)[1..] == a1[1..] + a2;
      } else if a1 == [] {
        SubsequenceConcat(a1, b1[1..], a2, b2);
        SubsequenceExtend(a1 + a2, b1[1..] + b2, b1[0]);
        assert [b1[0]] + (b1[1..] + b2) == b1 + b2;
      } else {
        SubsequenceConcat(a1, b1[1..], a2, b2);
      }
    }
  }

  lemma {:induction false} SubsequenceElements<T>(a: seq<T>, b: seq<T>)
    requires IsSubsequence(a, b)
    ensures forall x :: x in a ==> x in b
    decreases |b|
  {
    if a != [] {
      if a[0] == b[0] && IsSubsequence(a[1..], b[1..]) {
        SubsequenceElements(a[1..], b[1..]);
        assert forall x :: x in a ==> x == a[0] || x in a[1..];
      } else {
        SubsequenceElements(a, b[1..]);
      }
    }
  }

  lemma {:induction false} SubsequenceNoDuplicates<T>(a: seq<T>, b: seq<T>)
    requires IsSubsequence(a, b) && NoDuplicates(b)
    ensures NoDuplicates(a)
    decreases |b|
  {
    if a != [] {
      assert NoDuplicates(b[1..]);
      if a[0] == b[0] && IsSubsequence(a[1..], b[1..]) {
        SubsequenceNoDuplicates(a[1..], b[1..]);
        SubsequenceElements(a[1..], b[1..]);
        assert b[0] !in b[1..];
        forall i, j | 0 <= i < j < |a| ensures a[i] != a[j] {
          if i == 0 {
            assert a[j] == a[1..][j - 1];
          } else {
            assert a[i] == a[1..][i - 1] && a[j] == a[1..][j - 1];
          }
        }
      } else {
        SubsequenceNoDuplicates(a, b[1..]);
      }
    }
  }

  lemma {:induction false} SubsequenceOfItself<T>(s: seq<T>)
    ensures IsSubsequence(s, s)
    decreases |s|
  {
    if s != [] {
      SubsequenceOfItself(s[1..]);
    }
  }

  lemma {:induction false} EmptySubsequence<T>(s: seq<T>)
    ensures IsSubsequence([], s)
  {
  }
}

=== FILE: text.dfy ===
/**
 * The handful of Python `str` operations the services rely on, with Python's
 * semantics: `lower`, `startswith`/`endswith`, `in`, `split(sep)`, `split()`,
 * `splitlines()`, `strip()`, `sep.join(...)` and `replace` of one character.
 */
module Text {

  /** Characters Python's `str.split()` and `str.strip()` treat as whitespace. */
  predicate IsSpace(c: char) {
    c == ' ' || c == '\t' || c == '\n' || c == '\r' ||
    c == '\U{000B}' || c == '\U{000C}' ||
    ('\U{001C}' <= c <= '\U{001F}') ||
    c == '\U{0085}' || c == '\U{00A0}' || c == '\U{1680}' ||
    ('\U{2000}' <= c <= '\U{200A}') ||
    c == '\U{2028}' || c == '\U{2029}' || c == '\U{202F}' ||
    c == '\U{205F}' || c == '\U{3000}'
  }

  /** Characters at which Python's `str.splitlines()` ends a line. */
  predicate IsLineBreak(c: char) {
    c == '\n' || c == '\r' || c == '\U{000B}' || c == '\U{000C}' ||
    ('\U{001C}' <= c <= '\U{001E}') ||
    c == '\U{0085}' || c == '\U{2028}' || c == '\U{2029}'
  }

  predicate NoLineBreak(s: string) {
    forall i :: 0 <= i < |s| ==> !IsLineBreak(s[i])
  }

  function LowerChar(c: char): char {
    if 'A' <= c <= 'Z' then (c as int + 32) as char else c
  }

  /** `c * n`: the character `c`, `n` times. */
  function Repeat(c: char, n: nat): (s: string)
    ensures |s| == n && forall i :: 0 <= i < n ==> s[i] == c
  {
    if n == 0 then "" else Repeat(c, n - 1) + [c]
  }

  /** `s.lower()`, on ASCII letters. */
  function Lower(s: string): (r: string)
    ensures |r| == |s|
    ensures forall i :: 0 <= i < |s| ==> r[i] == LowerChar(s[i])
  {
    seq(|s|, i requires 0 <= i < |s| => LowerChar(s[i]))
  }

  predicate StartsWith(s: string, prefix: string) {
    |prefix| <= |s| && s[..|prefix|] == prefix
  }

  predicate EndsWith(s: string, suffix: string) {
    |suffix| <= |s| && s[|s| - |suffix|..] == suffix
  }

  predicate OccursAt(s: string, sub: string, i: int) {
    0 <= i && i + |sub| <= |s| && s[i..i + |sub|] == sub
  }

  /** Python's `sub in s`. */
  predicate Contains(s: string, sub: string) {
    exists i :: 0 <= i <= |s| - |sub| && OccursAt(s, sub, i)
  }

  /** The leftmost occurrence of `sub` at or after `from`, or -1. */
  function IndexFrom(s: string, sub: string, from: nat): (k: int)
    decreases |s| - from
    ensures k == -1 || from <= k
    ensures k == -1 ==> forall j :: from <= j ==> !OccursAt(s, sub, j)
    ensures k >= 0 ==> OccursAt(s, sub, k) && forall j :: from <= j < k ==> !OccursAt(s, sub, j)
  {
    if from + |sub| > |s| then -1
    else if s[from..from + |sub|] == sub then from
    else IndexFrom(s, sub, from + 1)
  }

  /** `s.find(sub)`. */
  function IndexOf(s: string, sub: string): (k: int)
    ensures k == -1 <==> !Contains(s, sub)
    ensures k >= 0 ==> OccursAt(s, sub, k) && forall j :: 0 <= j < k ==> !OccursAt(s, sub, j)
  {
    IndexFrom(s, sub, 0)
  }

  /** `s.split(sep)` for a non-empty separator: cut at every leftmost non-overlapping occurrence. */
  function Split(s: string, sep: string): (parts: seq<string>)
    requires |sep| > 0
    decreases |s|
    ensures |parts| >= 1
  {
    var k := IndexOf(s, sep);
    if k < 0 then [s] else [s[..k]] + Split(s[k + |sep|..], sep)
  }

  /** `sep.join(parts)`. */
  function Join(parts: seq<string>, sep: string): string {
    if |parts| == 0 then ""
    else if |parts| == 1 then parts[0]
    else parts[0] + sep + Join(parts[1..], sep)
  }

  /** `''.join(parts)`. */
  function Concat(parts: seq<string>): string {
    if |parts| == 0 then "" else parts[0] + Concat(parts[1..])
  }

  lemma JoinCons(head: string, tail: seq<string>, sep: string)
    requires |tail| > 0
    ensures Join([head] + tail, sep) == head + sep + Join(tail, sep)
  {
    assert ([head] + tail)[1..] == tail;
  }

  lemma CutAt(s: string, sep: string, k: int)
    requires OccursAt(s, sep, k)
    ensures s == s[..k] + sep + s[k + |sep|..]
  {
    assert s == s[..k] + s[k..k + |sep|] + s[k + |sep|..];
  }

  /** Joining what `split` cut gives back the original text. */
  lemma {:induction false} JoinSplit(s: string, sep: string)
    requires |sep| > 0
    ensures Join(Split(s, sep), sep) == s
    decreases |s|
  {
    var k := IndexOf(s, sep);
    if k >= 0 {
      var rest := s[k + |sep|..];
      JoinSplit(rest, sep);
      JoinCons(s[..k], Split(rest, sep), sep);
      CutAt(s, sep, k);
    }
  }

  /** No piece that `split` produces contains the separator. */
  lemma {:induction false} SplitPiecesAvoidSeparator(s: string, sep: string)
    requires |sep| > 0
    ensures forall p :: p in Split(s, sep) ==> !Contains(p, sep)
    decreases |s|
  {
    var k := IndexOf(s, sep);
    if k >= 0 {
      SplitPiecesAvoidSeparator(s[k + |sep|..], sep);
      var head := s[..k];
      forall j | OccursAt(head, sep, j) ensures false {
        assert head[j..j + |sep|] == s[j..j + |sep|];
        assert OccursAt(s, sep, j);
      }
    }
  }

  lemma JoinAppend(parts: seq<string>, x: string, sep: string)
    requires |parts| > 0
    ensures Join(parts + [x], sep) == Join(parts, sep) + sep + x
    decreases |parts|
  {
    if |parts| == 1 {
      assert parts + [x] == [parts[0], x];
    } else {
      assert (parts + [x])[1..] == parts[1..] + [x];
      JoinAppend(parts[1..], x, sep);
    }
  }

  lemma {:induction false} JoinStartsWith(parts: seq<string>, sep: string)
    requires |parts| > 0
    ensures StartsWith(Join(parts, sep), parts[0])
  {
    if |parts| > 1 {
      assert Join(parts, sep) == parts[0] + (sep + Join(parts[1..], sep));
    }
  }

  /** Number of leading characters of `s` that are not whitespace. */
  function RunLength(s: string): (n: nat)
    ensures n <= |s|
    ensures forall i :: 0 <= i < n ==> !IsSpace(s[i])
    ensures n < |s| ==> IsSpace(s[n])
  {
    if s == [] || IsSpace(s[0]) then 0 else 1 + RunLength(s[1..])
  }

  /** `s.split()`: the maximal runs of non-whitespace characters. */
  function Words(s: string): (ws: seq<string>)
    decreases |s|
    ensures forall w :: w in ws ==> |w| > 0 && forall i :: 0 <= i < |w| ==> !IsSpace(w[i])
  {
    if s == [] then []
    else if IsSpace(s[0]) then Words(s[1..])
    else
      var n := RunLength(s);
      [s[..n]] + Words(s[n..])
  }

  /** A non-empty run of non-whitespace characters. */
  predicate IsWord(w: string) {
    |w| > 0 && forall k :: 0 <= k < |w| ==> !IsSpace(w[k])
  }

  /** `w` occurs in `s` at `i` with whitespace (or an end of `s`) on both sides. */
  predicate WordAt(s: string, i: int, w: string) {
    && 0 <= i && i + |w| <= |s| && s[i..i + |w|] == w
    && (i == 0 || IsSpace(s[i - 1]))
    && (i + |w| == |s| || IsSpace(s[i + |w|]))
  }

  /** `s.split()` yields exactly the maximal runs of non-whitespace characters of `s`. */
  lemma {:induction false} WordsIff(s: string, w: string)
    ensures w in Words(s) <==> IsWord(w) && exists i :: WordAt(s, i, w)
    decreases |s|
  {
    if s == [] {
    } else if IsSpace(s[0]) {
      WordsIff(s[1..], w);
      WordsIffAfterSpace(s, w);
    } else {
      WordsIff(s[RunLength(s)..], w);
      WordsIffAfterRun(s, w);
    }
  }

  /** A leading whitespace character neither starts nor hides a word. */
  lemma WordsIffAfterSpace(s: string, w: string)
    requires s != [] && IsSpace(s[0])
    requires w in Words(s[1..]) <==> IsWord(w) && exists i :: WordAt(s[1..], i, w)
    ensures w in Words(s) <==> IsWord(w) && exists i :: WordAt(s, i, w)
  {
    if IsWord(w) && exists i :: WordAt(s, i, w) {
      var i :| WordAt(s, i, w);
      assert w[0] == s[i];
      WordAtToSuffix(s, 1, i, w);
    }
    if w in Words(s[1..]) {
      var i :| WordAt(s[1..], i, w);
      WordAtFromSuffix(s, 1, i, w);
    }
  }

  /** A leading run is the first word; the other words lie after it. */
  lemma WordsIffAfterRun(s: string, w: string)
    requires s != [] && !IsSpace(s[0])
    requires w in Words(s[RunLength(s)..]) <==> IsWord(w) && exists i :: WordAt(s[RunLength(s)..], i, w)
    ensures w in Words(s) <==> IsWord(w) && exists i :: WordAt(s, i, w)
  {
    var n := RunLength(s);
    assert Words(s) == [s[..n]] + Words(s[n..]);
    if w == s[..n] {
      assert WordAt(s, 0, w);
    } else if w in Words(s[n..]) {
      var i :| WordAt(s[n..], i, w);
      assert w[0] == s[n..][i];
      WordAtFromSuffix(s, n, i, w);
    }
    if IsWord(w) && exists i :: WordAt(s, i, w) {
      var i :| WordAt(s, i, w);
      if i == 0 {
        FirstWord(s, w);
      } else {
        WordAtToSuffix(s, n, i, w);
      }
    }
  }

  /** The word at the start of `s` is its leading run of non-whitespace. */
  lemma FirstWord(s: string, w: string)
    requires IsWord(w) && WordAt(s, 0, w)
    ensures w == s[..RunLength(s)]
  {
    assert |w| >= RunLength(s);
  }

  lemma WordAtFromSuffix(s: string, d: nat, i: nat, w: string)
    requires d <= |s| && WordAt(s[d..], i, w)
    requires i > 0 || d == 0 || IsSpace(s[d - 1])
    ensures WordAt(s, i + d, w)
  {
    assert s[d..][i..i + |w|] == s[i + d..i + d + |w|];
    if i > 0 {
      assert s[d..][i - 1] == s[i + d - 1];
    }
    if i + |w| < |s| - d {
      assert s[d..][i + |w|] == s[i + d + |w|];
    }
  }

  lemma WordAtToSuffix(s: string, d: nat, i: nat, w: string)
    requires WordAt(s, i, w) && d <= i
    ensures WordAt(s[d..], i - d, w)
  {
    assert s[d..][i - d..i - d + |w|] == s[i..i + |w|];
    if i > d {
      assert s[d..][i - d - 1] == s[i - 1];
    }
    if i + |w| < |s| {
      assert s[d..][i - d + |w|] == s[i + |w|];
    }
  }

  /** `s.split()` is empty exactly when `s` is all whitespace. */
  lemma {:induction false} WordsEmptyIffBlank(s: string)
    ensures Words(s) == [] <==> forall i :: 0 <= i < |s| ==> IsSpace(s[i])
    decreases |s|
  {
    if s != [] && IsSpace(s[0]) {
      WordsEmptyIffBlank(s[1..]);
      assert forall i :: 1 <= i < |s| ==> s[i] == s[1..][i - 1];
    }
  }

  function TrimStart(s: string): (r: string)
    ensures |r| <= |s| && r == s[|s| - |r|..]
    ensures r == [] || !IsSpace(r[0])
    ensures forall i :: 0 <= i < |s| - |r| ==> IsSpace(s[i])
  {
    if s != [] && IsSpace(s[0]) then
      var r := TrimStart(s[1..]);
      assert s[1..][|s| - 1 - |r|..] == s[|s| - |r|..];
      assert forall i :: 1 <= i < |s| - |r| ==> s[i] == s[1..][i - 1];
      r
    else s
  }

  function TrimEnd(s: string): (r: string)
    ensures |r| <= |s| && r == s[..|r|]
    ensures r == [] || !IsSpace(r[|r| - 1])
    ensures forall i :: |r| <= i < |s| ==> IsSpace(s[i])
  {
    if s != [] && IsSpace(s[|s| - 1]) then
      var r := TrimEnd(s[..|s| - 1]);
      assert s[..|s| - 1][..|r|] == s[..|r|];
      assert forall i :: |r| <= i < |s| - 1 ==> s[i] == s[..|s| - 1][i];
      r
    else s
  }

  /** `s.strip()`: drops the whitespace at both ends. */
  function Strip(s: string): (r: string)
    ensures r == [] || (!IsSpace(r[0]) && !IsSpace(r[|r| - 1]))
  {
    TrimEnd(TrimStart(s))
  }

  lemma StripKeepsNoLineBreak(s: string)
    requires NoLineBreak(s)
    ensures NoLineBreak(Strip(s))
  {
    var t := TrimStart(s);
    SliceKeepsNoLineBreak(s, |s| - |t|, |s|);
    SliceKeepsNoLineBreak(t, 0, |TrimEnd(t)|);
  }

  lemma SliceKeepsNoLineBreak(s: string, lo: nat, hi: nat)
    requires NoLineBreak(s) && lo <= hi <= |s|
    ensures NoLineBreak(s[lo..hi])
  {
    forall j | 0 <= j < hi - lo ensures !IsLineBreak(s[lo..hi][j]) {
      assert s[lo..hi][j] == s[lo + j];
    }
  }

  /** Index of the first line break in `s`, or `|s|`. */
  function LineEnd(s: string): (n: nat)
    ensures n <= |s|
    ensures NoLineBreak(s[..n])
    ensures n < |s| ==> IsLineBreak(s[n])
  {
    if s == [] || IsLineBreak(s[0]) then 0
    else
      var m := 1 + LineEnd(s[1..]);
      assert forall i :: 1 <= i < m ==> s[..m][i] == s[1..][..m - 1][i - 1];
      m
  }

  /** `s.splitlines()`: lines without their terminators; "\r\n" is one terminator. */
  function SplitLines(s: string): (lines: seq<string>)
    decreases |s|
    ensures forall l :: l in lines ==> NoLineBreak(l)
  {
    if s == [] then []
    else
      var n := LineEnd(s);
      if n == |s| then [s]
      else
        var width := if s[n] == '\r' && n + 1 < |s| && s[n + 1] == '\n' then 2 else 1;
        [s[..n]] + SplitLines(s[n + width..])
  }

  /** Text without line breaks is a single line (or none, when empty). */
  lemma SplitLinesOfOneLine(s: string)
    requires NoLineBreak(s)
    ensures SplitLines(s) == if s == [] then [] else [s]
  {
    if s != [] {
      assert !IsLineBreak(s[0]);
    }
  }

  lemma {:induction false} ConcatNoLineBreak(parts: seq<string>)
    requires forall p :: p in parts ==> NoLineBreak(p)
    ensures NoLineBreak(Concat(parts))
  {
    if |parts| > 0 {
      ConcatNoLineBreak(parts[1..]);
      var head, tail := parts[0], Concat(parts[1..]);
      var c := Concat(parts);
      assert c == head + tail;
      assert NoLineBreak(head);
      forall i | 0 <= i < |c| ensures !IsLineBreak(c[i]) {
        if i < |head| {
          assert c[i] == head[i];
        } else {
          assert c[i] == tail[i - |head|];
        }
      }
    }
  }

  /** `s.replace(target, replacement)` for single characters. */
  function ReplaceChar(s: string, target: char, replacement: char): (r: string)
    ensures |r| == |s|
    ensures forall i :: 0 <= i < |s| ==> r[i] == if s[i] == target then replacement else s[i]
  {
    seq(|s|, i requires 0 <= i < |s| => if s[i] == target then replacement else s[i])
  }

  /** After replacing every `target` by a different character, none is left. */
  lemma ReplaceCharRemoves(s: string, target: char, replacement: char)
    requires target != replacement
    ensures target !in ReplaceChar(s, target, replacement)
  {
    var r := ReplaceChar(s, target, replacement);
    forall i | 0 <= i < |r| ensures r[i] != target { }
  }
}

=== FILE: wrappers.dfy ===
/** The optional value that the services return in place of Python's `None`. */
module Wrappers {

  datatype Option<+T> = None | Some(value: T)
}
